=== FILE: README.md ===
# browser-glue, modelled in Dafny

browser-glue lets browsers that run as flatpaks use native-messaging hosts
installed on the host system. For each enabled host manifest and each
extension it allows, it runs a server on a Unix socket. The browser's
sandbox gets a copy of the manifest that points at a small client stub.
The stub dials the socket, and the server starts the real host application
and copies bytes between the socket and the application's pipes. A
"sniffer" decodes the native-messaging frames that pass through and prints
them.

This project models the core of that program and proves properties about
it:

- **Browser tables**: flatpak ids, names, the client stub path.
- **Manifests** (`NativeMessagingConfig`): validation when parsed, deep copy,
  pointing at the stub, and the temp-then-rename write.
- **Manifest discovery**: host folders, the `.json` filter, collection over
  one browser or all of them, and the enabled filter.
- **Settings store**: the enabled lists per browser and the change subscribers.
- **Socket file names**: base64 with a custom alphabet, truncated to 50
  characters.
- **Sniffer**: the frame length decode and the frame loop.
- **One connection**: `handleConnection` with its deferred calls, and `customCopyGo`.
- **One server**: the `running` guard, the accept-retry counter, stop and
  drain, and the permission routine.
- **Supervisor**: the registry of running servers, the exit broadcast, and
  the reconciliation pass `refreshEnabledServers`.
- **Client stub writer**: the record-before-write memo.
- **Flatpak permission check and fix**.

Some code changes state step by step. That code is modelled imperatively:

- Go structs updated through pointers are classes: `NativeMessagingConfig`,
  `SettingsStore`, `Server`, `Manager`, `ExitSignal` and
  `ClientExecutableWriter`.
- Loops are methods with loop invariants. Each is proved against a function
  that specifies it.

Pure code becomes functions and lemmas.

Goroutines, channels and locks become sequential steps.

Operating-system calls, the `flatpak` command and `encoding/json` are inputs:

- a `bool` for "this call succeeds";
- the lines a command printed;
- a function value that stands for decoding or marshalling.

`GetHomeDirPath()` and the runtime directory are parameters.

Two facts of the code shape the model:

- The sniffer keeps no state between writes
  (lib/server/connection.go:107-152). Each chunk is decoded on its own, and
  a frame split across two writes is lost.
- `GenerateSocketFileName` adds no suffix to the encoded name
  (lib/util/filesystem.go:52-61).

Where two snapshots of the same code disagree, the model follows these:

- lib/server/manager.go, not the copy at lib/server/server.go:145-271. Its
  `broadcast` empties the receiver list.
- lib/util/browser.go for the browser tables (four browsers).
- lib/util/filesystem.go for `GenerateSocketFileName`.

Files: `prelude.dfy` (Option, Result, sequence helpers), `paths.dfy`,
`browser.dfy`, `socket_name.dfy`, `framing.dfy`, `connection.dfy`,
`config.dfy`, `config_file.dfy`, `settings.dfy`, `server.dfy`,
`manager.dfy`, `client_manager.dfy`, `permissions.dfy`.

## Model

| member | source | states |
|---|---|---|
| Prelude.TrimPrefix | lib/util/filesystem.go:53 | one leading occurrence of the prefix is removed; a string without it is unchanged |
| Prelude.RemoveAll | lib/settings/settings.go:43 | `slices.DeleteFunc` by equality: the element is gone, every other element stays, nothing new appears |
| Prelude.RemoveAllLength | lib/settings/settings.go:43 | exactly the occurrences of the element are removed |
| Prelude.RemoveAllAbsent | lib/server/manager.go:144 | deleting an element that is not there changes nothing |
| Prelude.RemoveAllAppend | lib/server/manager.go:135-144 | deleting from a concatenation deletes from each part |
| FilePaths.Join | lib/config/config.go:53 | `filepath.Join` of two elements, without `Clean`; it has no ensures, and its meaning is carried by `BaseOfJoin`, `ExtOfJoin` and `BaseOfJoinAll` |
| FilePaths.Dir | lib/config/config.go:53 | `filepath.Dir`: everything before the last separator; it has no ensures, and its meaning is carried by `ResolvedIsAbsolute` and `TempPathIsSibling` |
| FilePaths.Base | lib/config/config_file.go:21-23 | the last element of a path is non-empty, and is either "/" or free of separators |
| FilePaths.Ext | lib/config/config_file.go:220 | the extension starts with '.', is a suffix of the path, and contains no separator |
| FilePaths.BaseOfJoin | lib/config/config_file.go:220-221 | a file name joined to any folder reads back as that name |
| FilePaths.BaseOfJoinAll | lib/config/config_file.go:80-91 | a path of several elements ending in a file name has that name as its Base |
| FilePaths.ExtOfJoin | lib/config/config_file.go:220-221 | joining a file name to a folder keeps its extension |
| FilePaths.TempPathIsSibling | lib/config/config.go:67 | the temporary `<base>.new` path names `<base>.new` and is never the target itself |
| Browsers.GetAllBrowsers | lib/util/browser.go:21 | four distinct browsers (Firefox, Floorp, Chromium, Brave), without the none and all markers |
| Browsers.GetFlatpakId | lib/util/browser.go:23-36 | an id exactly for the four known browsers (a panic otherwise), never empty |
| Browsers.GetName | lib/util/browser.go:38-51 | a name exactly where there is a flatpak id |
| Browsers.FlatpakIdsDistinct | lib/util/browser.go:25-32 | different known browsers have different flatpak ids and names |
| Browsers.GetFlatpakRuntimeAppFolder | lib/util/browser.go:53-55 | defined exactly for the known browsers |
| Browsers.GetClientPath | lib/util/browser.go:57-59 | defined exactly for the known browsers, and names the file "client" |
| Browsers.ClientPathLayout | lib/util/browser.go:53-59 | the stub path is `<runtimeDir>/app/<flatpak id>/browser-glue/client` |
| SocketNames.SymbolsSpellAlphabet | lib/util/filesystem.go:130 | the 64 symbols are `A–Z a–z 0–9 + -`, in that order |
| SocketNames.Encode | lib/util/filesystem.go:54 | base64 as in section 4 of RFC 4648: the output is 4·⌈n/3⌉ characters (its alphabet: `EncodingUsesAlphabet`) |
| SocketNames.DecodeEncode | lib/util/filesystem.go:54 | the encoding round-trips: decoding it gives back the bytes |
| SocketNames.DecodeEncodeStep | lib/util/filesystem.go:54 | one whole group in front of an encoding that round-trips decodes to its three bytes followed by the rest |
| SocketNames.EncodeInjective | lib/util/filesystem.go:54 | different byte strings have different encodings |
| SocketNames.EncodingUsesAlphabet | lib/util/filesystem.go:130 | every encoded character is in the alphabet or is `=`; `/` never appears |
| SocketNames.EncodeAppend | lib/util/filesystem.go:54 | the encoding of whole 3-byte groups followed by more bytes is the concatenation of the two encodings |
| SocketNames.GenerateSocketFileName | lib/util/filesystem.go:52-61 | at most 50 characters; a prefix of the encoding of the name without `chrome-extension://`, and the whole encoding when that fits; never a `/` |
| SocketNames.SchemeIsRemovedOnce | lib/util/filesystem.go:53 | a single leading `chrome-extension://` is stripped before encoding |
| SocketNames.ShortNamesNotTruncated | lib/util/filesystem.go:54-58 | stripped names of at most 36 bytes are never truncated |
| SocketNames.ShortNamesDistinct | lib/util/filesystem.go:54-60 | different stripped names of at most 36 bytes give different socket names |
| SocketNames.EncodingPrefix | lib/util/filesystem.go:54-58 | the first 50 characters depend only on the first 38 bytes: twelve whole groups, then two symbols fixed by the 37th byte and the high half of the 38th |
| SocketNames.EncodingPrefixAt | lib/util/filesystem.go:54-58 | past g whole groups, the next two symbols are fixed by the next byte and the high half of the one after |
| SocketNames.EncodingStart | lib/util/filesystem.go:54 | the first two symbols of an encoding of two or more bytes depend on the first two bytes alone |
| SocketNames.LongNamesCollide | lib/util/filesystem.go:54-58 | names that agree on their first 38 stripped bytes get the same socket name |
| Framing.SizeAsWritten | lib/server/connection.go:115-118 | the size as the code writes it, with Go's equal precedence of `<<` and `*`; it has no ensures, and its meaning is carried by `AsWrittenBound`, `AsWrittenLowBytes` and `AsWrittenMisreads64KiB` |
| Framing.SizeLittleEndian | lib/server/connection.go:115-118 | the little-endian size the code evidently intends; it has no ensures, and its meaning is carried by `LengthPrefix`, `RulesAgreeBelow64KiB` and `SniffFrames` |
| Framing.MessageSize | lib/server/connection.go:115-118 | the decoded size fits in 32 bits; as written it is always below 2^18 |
| Framing.AsWrittenBound | lib/server/connection.go:115-118 | the size as written is below 2^18 |
| Framing.AsWrittenLowBytes | lib/server/connection.go:115-118 | when the two high bytes are zero, the size as written is the little-endian value b0 + 256·b1 |
| Framing.RulesAgreeBelow64KiB | lib/server/connection.go:115-118 | the decode as written agrees with little-endian for every size below 65536 |
| Framing.AsWrittenMisreads64KiB | lib/server/connection.go:115-118 | the prefix 00 00 01 00 means 65536, but is decoded as 512 |
| Framing.ErrorsEndTheLog | lib/server/connection.go:120-136 | at most the last entry of a log is an error, and every other entry is a printed frame in the direction's colour |
| Framing.Sniff | lib/server/connection.go:111-150 | the frame loop over one chunk: a chunk shorter than a length prefix logs nothing and any other logs at least one line; every line consumes at least the 4 prefix bytes; printed lines carry the direction's colour |
| Framing.Sniffer.Write | lib/server/connection.go:107-152 | returns the full input length and no error, whatever the bytes; its log is the frame-by-frame sniff of the chunk |
| Framing.LengthPrefix | lib/server/connection.go:115-118 | the 4-byte little-endian prefix of a length decodes back to that length |
| Framing.AllPrinted | lib/server/connection.go:145-149 | one printed entry per message, in order and in the direction's colour |
| Framing.SniffFrame | lib/server/connection.go:111-149 | a frame holding a JSON object is printed and the loop continues with the bytes after it |
| Framing.SniffFrames | lib/server/connection.go:111-150 | framed messages are reported in order, each exactly its payload; as written this holds only for messages below 65536 bytes |
| Framing.CutFrameIsLost | lib/server/connection.go:120-124 | a frame cut short by the end of the chunk is reported as too large, and nothing further is decoded |
| Framing.LargeFrameMisread | lib/server/connection.go:115-136 | a 65536-byte message is cut at 512 bytes and rejected as not an object; the little-endian decode does otherwise |
| Connections.ConnectionTrace | lib/server/connection.go:30-90 | the wait group is entered first and left last, exactly once; the connection is closed and the command waited for on every path |
| Connections.ConnectionTraceCopies | lib/server/connection.go:46-90 | the copies start exactly when setup succeeds; a copy error is logged exactly when a copy fails after a successful start |
| Connections.ConnectionOutcome | lib/server/connection.go:46-67 | nil exactly when the pipes and the start succeed; with the defers as written a failing pipe panics and a failing start returns its error; with the defers after the checks the first failure is returned |
| Connections.NilPipeCloseEndsInPanic | lib/server/connection.go:46-47 | a failing `StdinPipe` panics as written and returns the pipe error when the defer follows the check |
| Connections.HandleConnection | lib/server/connection.go:27-91 | the defer stack gives the outcome and trace above |
| Connections.SniffChunks | lib/server/connection.go:93-152 | the sniffer's log over a copy: each chunk sniffed on its own and logged in turn; empty exactly when no chunk holds a length prefix; printed lines carry the direction's colour |
| Connections.CustomCopy | lib/server/connection.go:93-100 | the destination gets the chunks up to the first refused one, and the sniffer sees only those; nil exactly when every chunk was accepted and the source ended; never `io.EOF` |
| NativeConfig.Manifest.GetExtensions | lib/config/config.go:34-40 | one of the two lists, at least as long as the other; on a tie, the origins |
| NativeConfig.ResolveExecutable | lib/config/config.go:52-54 | an absolute executable is kept; a relative one is placed in the manifest's folder, so the result always ends with the executable as written |
| NativeConfig.ResolvedIsAbsolute | lib/config/config.go:52-54 | a manifest at an absolute path names an absolute executable once resolved |
| NativeConfig.Validate | lib/config/config.go:55-60 | valid exactly when the type is "stdio" and some extension list is non-empty; the type is checked first |
| NativeConfig.DecodedInto | lib/config/config.go:48 | a decode error yields no manifest (a partial fill on a type mismatch is not modelled), and `null` leaves the config as it was |
| NativeConfig.Parse | lib/config/config.go:42-62 | a parsed manifest is of type stdio with extensions, and its executable is absolute when the manifest's path is; an unreadable file is a read error; a `null` file (decoded into the receiver itself) leaves the zero manifest and is rejected as an unsupported type |
| NativeConfig.ParseOutcomeOf | lib/config/config.go:42-62 | on a fresh config, `ParseFile` panics exactly when the decode nils its receiver variable, and otherwise returns nil exactly when the manifest parses, or else the parse error |
| NativeConfig.NullManifestPanics | lib/config/config.go:48-52 | a manifest file holding `null` panics as written, and is rejected as an unsupported type when decoded into the receiver itself |
| NativeConfig.NativeMessagingConfig.constructor | lib/config/config_file.go:194 | a new config holds the zero manifest |
| NativeConfig.NativeMessagingConfig.ParseFile | lib/config/config.go:42-62 | a read failure leaves the config alone, and so does a decode failure in this model (a partial fill on a type mismatch is not modelled); decoding `null` through `&config` panics, with the config untouched; otherwise the config holds the decoded manifest (or its old value after `null` decoded into the receiver itself) with its executable resolved, and the error is the first failing check; on a fresh config the outcome is that of `ParseOutcomeOf` |
| NativeConfig.NativeMessagingConfig.ResolveAndValidate | lib/config/config.go:52-60 | only the executable changes, to its resolved form, and the result is the validation of the updated manifest |
| NativeConfig.NativeMessagingConfig.ConvertToCustomConfig | lib/config/config.go:110-112 | only the executable changes, to the browser's client stub |
| NativeConfig.NativeMessagingConfig.WriteFile | lib/config/config.go:64-94 | marshal, temp-write and rename failures are reported in that order; a failed rename leaves the temp file; success puts the data at the target and removes the temp file |
| NativeConfig.CreateCopy | lib/config/config.go:100-108 | a new object with equal contents, so later updates to it leave the original alone |
| NativeConfig.TempPath | lib/config/config.go:67 | the `<path>.new` sibling used for the atomic write; it has no ensures, and its meaning is carried by `TempPathIsSibling` and `WriteReplacesTarget` |
| NativeConfig.WriteReplacesTarget | lib/config/config.go:81-92 | after a complete write the target holds the data, the temp file is gone and every other file is unchanged |
| ConfigFiles.NativeConfigFile.Name | lib/config/config_file.go:21-23 | the name is a single path element: non-empty, and "/" or free of separators |
| ConfigFiles.NativeConfigFile.Matches | lib/config/config_file.go:29-31 | files that match have the same name |
| ConfigFiles.NativeConfigFile.IsEnabled | lib/config/config_file.go:33-35 | enabled exactly when the browser has a stored list that holds the file's name |
| ConfigFiles.MatchesIsEquivalence | lib/config/config_file.go:29-31 | matching (same browser, same path) is an equivalence, and files that match have the same name and enabled state |
| ConfigFiles.NameOfListedFile | lib/config/config_file.go:21-23 | a file found in a folder is named as it was listed |
| ConfigFiles.HostFolder | lib/config/config_file.go:170-179 | a host folder exactly for the known browsers (`ErrBrowserNotKnown` otherwise) |
| ConfigFiles.SharedHostFolders | lib/config/config_file.go:172-175 | Firefox and Floorp share a folder, and so do Chromium and Brave |
| ConfigFiles.FlatpakConfigPath | lib/config/config_file.go:80-95 | defined exactly for the known browsers (a panic otherwise); the sandbox copy keeps the manifest's file name |
| ConfigFiles.WriteConfigToFlatpakDir | lib/config/config_file.go:103-122 | succeeds exactly when marshal, write and rename do, and then the sandbox path holds the manifest pointed at the client stub; the old sandbox copy is removed first, so after any failure the sandbox path holds nothing; every path other than the target and its temporary sibling is unchanged |
| ConfigFiles.JsonFiles | lib/config/config_file.go:219-224 | exactly the non-folder entries with extension ".json", in listing order |
| ConfigFiles.JsonFilesOne | lib/config/config_file.go:219-224 | one entry is kept exactly when it is a file with extension ".json" |
| ConfigFiles.JsonFilesAppend | lib/config/config_file.go:219-224 | the filter keeps the listing order and repeats: a split listing gives the two parts' files in turn |
| ConfigFiles.JoinEach | lib/config/config_file.go:221 | each name placed in the folder, in order |
| ConfigFiles.CollectConfigFilePathsInFolder | lib/config/config_file.go:207-227 | a missing folder gives no paths and no error; an unreadable one gives an error; otherwise the paths of its ".json" files |
| ConfigFiles.CollectedPathsAreJson | lib/config/config_file.go:219-224 | every collected path has extension ".json" |
| ConfigFiles.ParsedFiles | lib/config/config_file.go:193-202 | no more files than paths |
| ConfigFiles.ParsedFilesSound | lib/config/config_file.go:193-202 | every file kept is of the browser, from the paths, and holds what its path parses to |
| ConfigFiles.ParsedFilesComplete | lib/config/config_file.go:193-202 | every path that parses is kept, with what it parses to |
| ConfigFiles.ParsedFilesOne | lib/config/config_file.go:193-202 | one path gives its file exactly when it parses, and nothing otherwise |
| ConfigFiles.ParsedFilesAppend | lib/config/config_file.go:193-202 | the files keep the order of the paths: split paths give the two parts' files in turn |
| ConfigFiles.CollectOne | lib/config/config_file.go:168-205 | an unknown browser is an error; a missing host folder gives no files and no error; an unreadable one gives its error and no files; otherwise the parsed files of the folder's ".json" entries, all of that browser |
| ConfigFiles.CollectEach | lib/config/config_file.go:157-166 | the files found before are kept as a prefix of the result |
| ConfigFiles.CollectEachConcatenates | lib/config/config_file.go:157-166 | when no browser fails, the result is each browser's files in turn |
| ConfigFiles.CollectEachStopsAtError | lib/config/config_file.go:158-162 | the first failing browser ends the collection with its error and the files found before it |
| ConfigFiles.CollectConfigFiles | lib/config/config_file.go:156-205 | the method, calling itself for each browser when asked for all of them, gives the collection above |
| ConfigFiles.CollectHostConfigFiles | lib/config/config_file.go:168-205 | the single-browser part gives that browser's collection |
| ConfigFiles.ParseEach | lib/config/config_file.go:193-202 | parsing each path into a fresh config keeps exactly the ones that parse |
| ConfigFiles.CollectedFilesParse | lib/config/config_file.go:193-202 | every collected file is a ".json" file of its browser that parses to the content recorded |
| ConfigFiles.EnabledOnly | lib/config/config_file.go:145-151 | exactly the enabled files, in order |
| ConfigFiles.EnabledOnlyOne | lib/config/config_file.go:145-151 | one file is kept exactly when it is enabled |
| ConfigFiles.EnabledOnlyAppend | lib/config/config_file.go:145-151 | the filter keeps the order and repeats: split files give the two parts' enabled files in turn |
| ConfigFiles.FilterEnabled | lib/config/config_file.go:145-151 | the filter loop keeps exactly `EnabledOnly` of the files |
| ConfigFiles.CollectEnabledConfigFiles | lib/config/config_file.go:139-154 | a collection error is passed on with the files found so far; otherwise the enabled collected files |
| Settings.EnabledIn | lib/settings/settings.go:23-28 | the stored list of the browser, and an empty list for a browser with none |
| Settings.SettingsStore.EnabledNativeConfigFiles | lib/settings/settings.go:23-28 | the stored list of the browser, and an empty list for a browser with none |
| Settings.UpdatedList | lib/settings/settings.go:30-47 | afterwards the name is listed exactly when enabling; other names keep their membership; nothing changes when membership already matches; enabling appends |
| Settings.UpdateIdempotent | lib/settings/settings.go:36-38 | asking twice is asking once |
| Settings.DisableRemovesEveryOccurrence | lib/settings/settings.go:43 | disabling removes every occurrence of the name |
| Settings.SettingsStore.SetNativeConfigFileEnabled | lib/settings/settings.go:30-48 | nothing is written when membership already matches; otherwise the new list is stored and written; other browsers are untouched |
| Settings.SettingsStore.SubscribeToChanges | lib/settings/settings.go:16-21 | a nil channel is ignored, any other is appended |
| Settings.SettingsStore.OnSettingsFileChanged | lib/settings/settings.go:88-97 | the subscribers with a waiting receiver are told, in order; the others are skipped |
| Settings.ReadySubscribers | lib/settings/settings.go:89-95 | exactly the ready subscribers |
| Settings.ReadySubscribersOne | lib/settings/settings.go:89-95 | one subscriber is told exactly when it is ready |
| Settings.ReadySubscribersAppend | lib/settings/settings.go:89-95 | subscribers are told in subscription order, repeats kept: split subscribers give the two parts' ready channels in turn |
| Servers.AcceptLoop | lib/server/server.go:102-141 | no more connections are dispatched than events arrive; the loop is still serving only if no stop has arrived |
| Servers.Server.constructor | lib/server/manager.go:85 | a new server is neither running nor holding a stop token |
| Servers.Server.End | lib/server/server.go:63-68 | a server that is not running is left alone; otherwise one stop token, and the send blocks when a token is already waiting |
| Servers.Server.Run | lib/server/server.go:70-143 | a second run is refused and changes nothing; the first sets `running` for good, asks for a permission check, fails if listening fails, and otherwise follows the accept loop; a stop drains the waiting connections and returns nil |
| Servers.FailuresAbsorbed | lib/server/server.go:117-121 | accept errors within the retry limit only raise the counter |
| Servers.SixthFailureIsFatal | lib/server/server.go:117-126 | the sixth consecutive accept error ends the server with an error |
| Servers.RetriesResetOnAccept | lib/server/server.go:113-114 | a successful accept resets the retry counter |
| Servers.NothingAfterStop | lib/server/server.go:128-139 | nothing after a stop is looked at, so no connection is dispatched after it |
| Servers.RunTwice | lib/server/server.go:71-74 | a second run of the same server always fails with `ErrAlreadyRunning` |
| Servers.PermissionRoutine | lib/server/server.go:275-294 | each queued browser is checked; the fix runs only when the check succeeded without finding a grant; errors are logged and the loop goes on |
| Servers.FixCommands | lib/server/server.go:284-288 | every grant command names a queued browser's id, and there are no more of them than browsers |
| Servers.NoFixWithoutNeed | lib/server/server.go:277-286 | browsers whose check fails or finds a grant get no fix |
| Permissions.CheckBrowserPermissions | lib/flatpak/permissions.go:14-54 | a failing command gives false and an error, and nothing is scanned; otherwise true exactly when some line grants the path, returned at the first such line |
| Permissions.FixBrowserPermissions | lib/flatpak/permissions.go:56-75 | runs `flatpak --user override --filesystem <path> <id>`; an error exactly when it fails |
| Permissions.Grants | lib/flatpak/permissions.go:39-45 | a line counts when it starts with `filesystems=` and contains the path; it has no ensures, and its meaning is carried by `OtherKeysIgnored`, `SubstringMatchAcceptsLongerPath` and `GrantedPathIsFound` |
| Permissions.OtherKeysIgnored | lib/flatpak/permissions.go:39-41 | lines without the `filesystems=` prefix never count |
| Permissions.SubstringMatchAcceptsLongerPath | lib/flatpak/permissions.go:43-45 | a filesystems line granting a longer folder that starts with the path also counts |
| Permissions.GrantedPathIsFound | lib/flatpak/permissions.go:43-45 | the line the fix adds is found by the check |
| Supervisor.ExitSignal.Subscribe | lib/server/manager.go:99-103 | the channel is appended |
| Supervisor.ExitSignal.Broadcast | lib/server/manager.go:105-114 | one token per receiver in subscription order, then the list is emptied |
| Supervisor.BroadcastTwice | lib/server/manager.go:109-112 | a second broadcast without new subscribers sends nothing |
| Supervisor.RunningExtensions | lib/server/manager.go:72-77 | the reference definition of the inner loop that lists served extensions; it has no ensures, and its meaning is carried by `RunningExtensionsExact` and `CollectRunningExtensions` |
| Supervisor.RunningExtensionsExact | lib/server/manager.go:72-77 | `RunningExtensions` lists exactly the extensions served for matching manifests: each matching server's, and no other |
| Supervisor.StartsFor | lib/server/manager.go:79-88 | the reference definition of the start loop for one manifest; it has no ensures, and its meaning is carried by `StartsForSound`, `StartsForComplete`, `StartsForOne` and `StartsForAppend` |
| Supervisor.StartsForSound | lib/server/manager.go:79-88 | every server `StartsFor` requests is for the manifest and one of its allowed extensions not yet served |
| Supervisor.StartsForComplete | lib/server/manager.go:79-88 | every allowed extension not yet served gets a server |
| Supervisor.Starts | lib/server/manager.go:71-89 | the reference definition of the nested start loops; it has no ensures, and its meaning is carried by `StartsSound`, `StartsComplete`, `StartsOne`, `StartsAppend` and `PassIsStable` |
| Supervisor.StartsSound | lib/server/manager.go:71-89 | every server a pass requests is for an allowed extension of an enabled manifest that no server of a matching manifest serves |
| Supervisor.StartsComplete | lib/server/manager.go:71-89 | every such extension gets a server |
| Supervisor.StartsForOne | lib/server/manager.go:79-88 | one allowed extension starts one server exactly when it is not served |
| Supervisor.StartsForAppend | lib/server/manager.go:79-88 | starts follow the allowed list's order and repeats: a split list starts the two parts' servers in turn |
| Supervisor.StartsOne | lib/server/manager.go:71-89 | one enabled manifest starts its own unserved extensions, as `StartsFor` says |
| Supervisor.StartsStep | lib/server/manager.go:71-89 | one more enabled manifest adds its own starts after those of the manifests before it |
| Supervisor.StartsAppend | lib/server/manager.go:71-89 | starts follow the order of the enabled manifests: split manifests start the two parts' servers in turn |
| Supervisor.Disabled | lib/server/manager.go:65-69 | exactly the running servers whose own manifest is no longer enabled |
| Supervisor.StartsForServed | lib/server/manager.go:79-84 | a manifest whose extensions are all served starts nothing |
| Supervisor.StartsServed | lib/server/manager.go:71-84 | a pass in which every allowed extension is served starts nothing |
| Supervisor.PassIsStable | lib/server/manager.go:71-89 | once the servers a pass starts are registered, repeating the pass starts nothing |
| Supervisor.ServedPassStartsNothing | lib/server/manager.go:72-84 | a registry that already serves every allowed extension gets no new server |
| Supervisor.RepeatedExtensionStartsTwice | lib/server/manager.go:79-88 | an extension listed twice in one manifest starts two servers |
| Supervisor.DroppedExtensionKeepsRunning | lib/server/manager.go:65-69 | a server whose manifest is still enabled is not stopped, even when its extension left the allowed list |
| Supervisor.Manager.StartServer | lib/server/manager.go:132-149 | the server is registered and run; once run returns, every entry of it is removed and the exit signal fires exactly when the registry becomes empty; a server that already ran is refused |
| Supervisor.Manager.StopAll | lib/server/manager.go:154-162 | every registered running server gets a stop token; an empty registry fires the exit signal at once |
| Supervisor.Manager.StopServers | lib/server/manager.go:38-47 | the caller's channel is subscribed before stop-all, so it is told at once when no server runs |
| Supervisor.Manager.RefreshEnabledServers | lib/server/manager.go:49-92 | a collection error starts and stops nothing; no enabled manifest means stop-all; otherwise the servers of disabled manifests are stopped and the missing ones started |
| Supervisor.Manager.StopsOfDisabled | lib/server/manager.go:65-69 | the stop loop requests exactly the disabled servers |
| Supervisor.Manager.StartsOfEnabled | lib/server/manager.go:71-89 | the nested start loops request exactly the missing servers |
| Supervisor.Manager.StartsForManifest | lib/server/manager.go:79-88 | the inner loop requests exactly what `StartsFor` gives for the manifest |
| Supervisor.Manager.CollectRunningExtensions | lib/server/manager.go:72-77 | the inner loop lists the extensions served for matching manifests |
| Supervisor.Manager.RunEnabledServersBackground | lib/server/manager.go:13-20 | the exit channel (unless nil) and the change channel are subscribed |
| Supervisor.Manager.OnSettingsChange | lib/server/manager.go:21-33 | a refresh that fails or finds nothing enabled leads to `StopServers`: with servers registered `allExited` is subscribed and nothing is sent yet, and with none it is told at once with the pending receivers and the list is cleared; otherwise the refresh's requests and an untouched exit signal |
| ClientExecutables.ClientWriteResult | lib/server/client_manager.go:36-63 | the error of the first failing step, in the order folder, create, chmod, write |
| ClientExecutables.ClientWriteSteps | lib/server/client_manager.go:36-63 | each operation runs only after the one before it succeeded; a created file is closed last on every path |
| ClientExecutables.ClientExecutableWriter.WriteClientExecutable | lib/server/client_manager.go:25-68 | a recorded path returns nil and touches nothing; a new path is recorded before any operation and stays recorded; the list keeps no duplicates |
| ClientExecutables.WriteTwice | lib/server/client_manager.go:28-34 | a path whose write failed is never tried again |

## Left out

- Goroutines, channels and locks. These cover the start, stop and stop-all
  queues, the accept goroutine, the drain `select`, the copy goroutines, the
  broadcast goroutine and every mutex. Each becomes one sequential step on
  explicit state.
  - Interleavings are not modelled. The model does not claim at most one
    server per manifest and extension, because registration happens in a
    goroutine after the pass.
  - Blocking waits are not modelled: `<-allExited` in `StopServers`,
    `connectionWait.Wait`, `copyWait.Wait` and `cmd.Wait`.
- Operating-system calls and the flatpak command. Their outcomes are inputs:
  `net.Listen`/`Accept`, `exec.Command`, `io.Copy`, `os.ReadFile`,
  `os.ReadDir`, `os.WriteFile`, `os.Rename`, `os.Remove`, `os.Create`.
  - `filepath.Rel` (`MakePathHomeRelative`) is left out; its result is a parameter.
  - The home and runtime directories are parameters.
- `encoding/json`. It becomes function values (`decode`, `marshal`, `isObject`).
  - The sniffer's `key: value` output and its colouring by pterm are left
    out. A printed frame is its raw payload and the colour.
  - Logging is left out.
- FilePaths.Join, FilePaths.Dir: `filepath.Clean`'s handling of `.`, `..`
  and doubled separators is not modelled. `Dir` does not collapse a doubled
  separator before the last element.
- NativeConfig.NativeMessagingConfig.ParseFile: a decoded manifest replaces
  every field. `json.Unmarshal` keeps the earlier value of a field missing
  from the JSON. Every caller parses into a fresh zero value, so the two agree there.
- NativeConfig.NativeMessagingConfig.ParseFile: a decode failure leaves the
  config untouched in the model. On a type mismatch such as
  `{"name": "x", "type": 1}`, `json.Unmarshal` at lib/config/config.go:48
  fills the well-typed fields, skips the bad one and returns an error, so
  the receiver is partly overwritten. The only caller
  (lib/config/config_file.go:194-200) parses into a fresh value and drops it
  on error, so no collected result differs.
- NativeConfig.DecodedInto: a decode error yields no manifest. The partial
  fill that `json.Unmarshal` leaves behind on a type mismatch is not
  modelled, for the reason in the line above.
- ConfigFiles.ParseEach, and the collection built on it, decode into the
  receiver itself (the corrected target of the third finding). As written,
  a `null` manifest in a host folder panics inside
  lib/config/config_file.go:195 and ends the process. The model states that
  panic for a single `ParseFile` only, not for a whole collection.
- Errors are tags. `fmt.Errorf` wrapping and messages are not modelled.
- ConfigFiles.NativeConfigFile.IsEnabled: only the decision is modelled.
  - The copy of an enabled manifest that is missing from the sandbox is
    written inside that check (lib/config/config_file.go:37-44). That write
    is modelled on its own, as `ConfigFiles.WriteConfigToFlatpakDir`.
  - The write is not performed during collection or refresh.
- Not modelled: `Enable`, `Disable`, `deleteConfigInFlatpakDir`,
  `flatpakFileExists`, `GetBrowser` and `IsIdentical`. They are used by the
  command-line and GUI layers and combine operations that are modelled.
- ConfigFiles.CollectHostConfigFiles: a missing host folder is not created
  (lib/config/config_file.go:181-184). A missing folder lists as empty either way.
- WriteFile and WriteConfigToFlatpakDir: a failed folder creation or a
  failed removal of the old copy is only logged in the source. Neither is modelled.
- Servers.Server.Run leaves out the following:
  - The socket path. `GenerateSocketPath` and `GetClientExecutableDir` are
    not part of this model.
  - The creation of the socket folder and the removal of a stale socket.
  - The listener's close.
- lib/server/server.go:115 calls `handleConnection` with seven arguments,
  including `ListenIn`. lib/server/connection.go:27 declares six parameters.
  The model follows the function as declared, and `listenIn` reaches no
  modelled behaviour.
- Servers.AcceptLoop: the accept goroutine sends both the error and a nil
  connection on failure. The model takes the error.
- `acceptConnection` (lib/server/connection.go:18-25) is not modelled. It is unused.
- Supervisor.Manager.RefreshEnabledServers: the requests sent to the stop
  and start queues are returned, not processed.
  - Processing is `Servers.Server.End` and `Supervisor.Manager.StartServer`.
  - The loop around `OnSettingsChange` runs forever, and is modelled one turn at a time.
- Supervisor.Manager.StartServer: a run that is still serving when its
  events run out leaves the server registered.
- Connections.CustomCopy: a destination that refuses a chunk refuses it
  whole. Read and write errors are both `CopyFailed`.
- Permissions.CheckBrowserPermissions: a scanner error is only logged in
  the source. The lines are those the scanner produced.
- Not modelled:
  - the duplicate supervisor code in lib/server/server.go:145-271;
  - the three-browser `GetAllBrowsers` in lib/util/filesystem.go;
  - the settings file's initialisation and watching.
- The client stub (client/client.go), the command line (cli/) and the GUI
  (gui/) are not part of this model.

## Findings

| source | as written | input that shows it | evidently intended | confidence | as-written member | corrected member |
|---|---|---|---|---|---|---|
| lib/server/connection.go:115-116 | `uint32(b[3]) << 8 * 3` is `(b[3] << 8) * 3` in Go, since `<<` and `*` share a precedence level; the same holds for `b[2]` with `* 2` | the prefix 00 00 01 00 of a 65536-byte message decodes to 512; the sniffer cuts the message there and stops | the little-endian length `b[0] \| b[1]<<8 \| b[2]<<16 \| b[3]<<24` | not executed | Framing.AsWrittenMisreads64KiB, Framing.LargeFrameMisread | Framing.SniffFrames (with `LittleEndian`, every message up to 2^32−1 bytes round-trips) |
| lib/server/connection.go:46-47, 54-55 | `defer stdin.Close()` and `defer stdout.Close()` come before the error check; on failure the pipe is a nil interface, and evaluating its `Close` method panics | `StdinPipe` (or `StdoutPipe`) fails: the handler panics instead of returning the error | defer the close after the error check, and return the wrapped error | not executed | Connections.NilPipeCloseEndsInPanic, Connections.ConnectionOutcome with `DeferBeforeCheck` | Connections.ConnectionOutcome with `DeferAfterCheck` (the first failure is returned) |
| lib/config/config.go:48-52 | `json.Unmarshal(data, &config)` decodes into the address of the receiver variable; a JSON `null` sets that variable to nil, and `config.Executable` then dereferences nil | a manifest file holding `null` in a host folder: `ParseFile` panics, and the collection at lib/config/config_file.go:195 takes the process down | decode into `config` itself, where `null` leaves the zero config and the manifest is rejected as an unsupported type | not executed | NativeConfig.NullManifestPanics, NativeConfig.NativeMessagingConfig.ParseFile with `ReceiverAddress` | NativeConfig.ParseOutcomeOf with `Receiver`, and NativeConfig.Parse, which the collection uses |

=== FILE: browser.dfy ===
/**
 * The browser tables of lib/util/browser.go. A `Browser` is a Go string; the
 * known browsers are four constants, and two further constants stand for "no
 * browser" and "every browser". The per-browser lookups panic on anything but
 * the four known browsers; here a panic is `None`.
 */
module Browsers {
  import opened Prelude
  import FilePaths

  type Browser = string

  const NoneBrowser: Browser := ""
  const AllBrowsers: Browser := "all"
  const Firefox: Browser := "firefox"
  const Floorp: Browser := "floorp"
  const Chromium: Browser := "chromium"
  const Brave: Browser := "brave"

  /** The application's short id, the folder name under the flatpak runtime app folder. */
  const ShortAppId: string := "browser-glue"

  /** `GetAllBrowsers`: the four browsers the bridge supports, in a fixed order. */
  function GetAllBrowsers(): (r: seq<Browser>)
    ensures |r| == 4 && NoDuplicates(r)
    ensures NoneBrowser !in r && AllBrowsers !in r
    ensures Firefox in r && Floorp in r && Chromium in r && Brave in r
  {
    [Firefox, Floorp, Chromium, Brave]
  }

  predicate IsKnown(browser: Browser)
  {
    browser in GetAllBrowsers()
  }

  /** `GetFlatpakId`: the flatpak application id; `None` where the source panics. */
  function GetFlatpakId(browser: Browser): (r: Option<string>)
    ensures r.Some? <==> IsKnown(browser)
    ensures r.Some? ==> r.value != ""
  {
    if browser == Firefox then Some("org.mozilla.firefox")
    else if browser == Floorp then Some("one.ablaze.floorp")
    else if browser == Chromium then Some("org.chromium.Chromium")
    else if browser == Brave then Some("com.brave.Browser")
    else None
  }

  /** `GetName`: the display name; `None` where the source panics. */
  function GetName(browser: Browser): (r: Option<string>)
    ensures r.Some? <==> GetFlatpakId(browser).Some?
  {
    if browser == Firefox then Some("Firefox")
    else if browser == Floorp then Some("Floorp")
    else if browser == Chromium then Some("Chromium")
    else if browser == Brave then Some("Brave")
    else None
  }

  /** Two different known browsers never share a flatpak id (nor a display name). */
  lemma FlatpakIdsDistinct(a: Browser, b: Browser)
    requires IsKnown(a) && IsKnown(b) && a != b
    ensures GetFlatpakId(a) != GetFlatpakId(b)
    ensures GetName(a) != GetName(b)
  {
  }

  /** `GetFlatpakRuntimeAppFolder`: `<runtimeDir>/app/<flatpak id>/browser-glue`. */
  function GetFlatpakRuntimeAppFolder(runtimeDir: string, browser: Browser): (r: Option<string>)
    ensures r.Some? <==> IsKnown(browser)
  {
    match GetFlatpakId(browser)
    case None => None
    case Some(id) => Some(FilePaths.Join(FilePaths.Join(FilePaths.Join(runtimeDir, "app"), id), ShortAppId))
  }

  /**
   * `GetClientPath`: where the client stub lives inside the browser's sandbox
   * view, the file "client" in the runtime app folder.
   */
  function GetClientPath(runtimeDir: string, browser: Browser): (r: Option<string>)
    ensures r.Some? <==> IsKnown(browser)
    ensures r.Some? ==> FilePaths.Base(r.value) == "client"
  {
    match GetFlatpakRuntimeAppFolder(runtimeDir, browser)
    case None => None
    case Some(folder) =>
      FilePaths.BaseOfJoin(folder, "client");
      Some(FilePaths.Join(folder, "client"))
  }

  /** Joining a non-empty element onto a directory that neither is "." nor ends in '/'. */
  lemma JoinPlain(dir: string, name: string)
    requires dir != "" && dir != "." && dir[|dir| - 1] != '/' && name != ""
    ensures FilePaths.Join(dir, name) == dir + "/" + name
  {
  }

  lemma FlatpakIdEndsPlain(browser: Browser)
    requires IsKnown(browser)
    ensures var id := GetFlatpakId(browser).value; id != "" && id != "." && id[|id| - 1] != '/'
  {
  }

  /** The nesting of joins the runtime app folder and the client path are built from. */
  lemma {:induction false} NestedJoins(runtimeDir: string, id: string)
    requires runtimeDir != "" && runtimeDir != "." && runtimeDir[|runtimeDir| - 1] != '/'
    requires id != "" && id[|id| - 1] != '/'
    ensures FilePaths.Join(FilePaths.Join(FilePaths.Join(FilePaths.Join(runtimeDir, "app"), id), ShortAppId), "client")
      == runtimeDir + "/" + "app" + "/" + id + "/" + ShortAppId + "/" + "client"
  {
    JoinPlain(runtimeDir, "app");
    var app := runtimeDir + "/" + "app";
    JoinPlain(app, id);
    var withId := app + "/" + id;
    assert withId[|withId| - 1] == id[|id| - 1];
    JoinPlain(withId, ShortAppId);
    var folder := withId + "/" + ShortAppId;
    JoinPlain(folder, "client");
  }

  /**
   * For an absolute runtime directory not ending in '/', the client path is
   * `<runtimeDir>/app/<flatpak id>/browser-glue/client`.
   */
  lemma ClientPathLayout(runtimeDir: string, browser: Browser)
    requires IsKnown(browser)
    requires FilePaths.IsAbs(runtimeDir) && runtimeDir[|runtimeDir| - 1] != '/'
    ensures GetClientPath(runtimeDir, browser).value
      == runtimeDir + "/" + "app" + "/" + GetFlatpakId(browser).value + "/" + ShortAppId + "/" + "client"
  {
    FlatpakIdEndsPlain(browser);
    assert runtimeDir[0] == '/';
    NestedJoins(runtimeDir, GetFlatpakId(browser).value);
  }
}

=== FILE: client_manager.dfy ===
/**
 * The writer of the client stub, lib/server/client_manager.go:18-68. The
 * paths already handled are kept in a list under a lock; the file
 * operations are inputs (whether each one succeeds) and are recorded as a
 * sequence of `FileStep`s.
 */
module ClientExecutables {
  import opened Prelude
  import FilePaths

  /** The permission bits of the folder and of the stub, 0o755. */
  const ExecutableMode: nat := 0x1ED

  datatype FileStep = MkdirAll(dir: string) | Create(path: string) | Chmod(path: string, mode: nat) | WriteData(path: string) | CloseFile(path: string)

  datatype ClientWriteError = MkdirFailed | CreateFailed | ChmodFailed | WriteFailed

  /** The error of the first file operation that fails, in the order folder, create, chmod, write. */
  function ClientWriteResult(mkdirOk: bool, createOk: bool, chmodOk: bool, writeOk: bool): (r: Option<ClientWriteError>)
    ensures r.None? <==> mkdirOk && createOk && chmodOk && writeOk
    ensures r == Some(CreateFailed) ==> mkdirOk
    ensures r == Some(ChmodFailed) ==> mkdirOk && createOk
    ensures r == Some(WriteFailed) ==> mkdirOk && createOk && chmodOk
  {
    if !mkdirOk then Some(MkdirFailed)
    else if !createOk then Some(CreateFailed)
    else if !chmodOk then Some(ChmodFailed)
    else if !writeOk then Some(WriteFailed)
    else None
  }

  /**
   * The file operations attempted for a new path: each runs only if the one
   * before it succeeded, and a created file is closed on every path that
   * follows its creation.
   */
  function ClientWriteSteps(path: string, mkdirOk: bool, createOk: bool, chmodOk: bool, writeOk: bool): (steps: seq<FileStep>)
    ensures |steps| >= 1 && steps[0] == MkdirAll(FilePaths.Dir(path))
    ensures CloseFile(path) in steps <==> mkdirOk && createOk
    ensures WriteData(path) in steps <==> mkdirOk && createOk && chmodOk
    ensures CloseFile(path) in steps ==> steps[|steps| - 1] == CloseFile(path)
  {
    var dir := MkdirAll(FilePaths.Dir(path));
    if !mkdirOk then [dir]
    else if !createOk then [dir, Create(path)]
    else if !chmodOk then [dir, Create(path), Chmod(path, ExecutableMode), CloseFile(path)]
    else [dir, Create(path), Chmod(path, ExecutableMode), WriteData(path), CloseFile(path)]
  }

  /** `alreadyCreatedListSafe`, with `writeClientExecutable`. */
  class ClientExecutableWriter {
    var alreadyCreated: seq<string>

    constructor ()
      ensures alreadyCreated == []
    {
      alreadyCreated := [];
    }

    /**
     * `writeClientExecutable`: a path already in the list returns nil and
     * touches nothing. A new path is recorded before any file operation, so
     * it stays recorded whatever happens next.
     */
    method WriteClientExecutable(path: string, mkdirOk: bool, createOk: bool, chmodOk: bool, writeOk: bool)
      returns (err: Option<ClientWriteError>, steps: seq<FileStep>)
      modifies this
      ensures path in old(alreadyCreated) ==> err == None && steps == [] && alreadyCreated == old(alreadyCreated)
      ensures path !in old(alreadyCreated) ==>
        alreadyCreated == old(alreadyCreated) + [path] &&
        err == ClientWriteResult(mkdirOk, createOk, chmodOk, writeOk) &&
        steps == ClientWriteSteps(path, mkdirOk, createOk, chmodOk, writeOk)
      ensures NoDuplicates(old(alreadyCreated)) ==> NoDuplicates(alreadyCreated)
      ensures path in alreadyCreated
    {
      if path in alreadyCreated {
        return None, [];
      }
      alreadyCreated := alreadyCreated + [path];
      steps := [MkdirAll(FilePaths.Dir(path))];
      if !mkdirOk {
        return Some(MkdirFailed), steps;
      }
      steps := steps + [Create(path)];
      if !createOk {
        return Some(CreateFailed), steps;
      }
      // The deferred close runs after whatever follows.
      var deferred := [CloseFile(path)];
      steps := steps + [Chmod(path, ExecutableMode)];
      if !chmodOk {
        return Some(ChmodFailed), steps + deferred;
      }
      steps := steps + [WriteData(path)];
      if !writeOk {
        return Some(WriteFailed), steps + deferred;
      }
      return None, steps + deferred;
    }
  }

  /** A path whose first write failed is never tried again: the second call returns nil and touches nothing, even where the same operations would fail again. */
  method WriteTwice(writer: ClientExecutableWriter, path: string, mkdirOk: bool, createOk: bool, chmodOk: bool, writeOk: bool)
    returns (firstErr: Option<ClientWriteError>, secondErr: Option<ClientWriteError>, secondSteps: seq<FileStep>)
    modifies writer
    ensures path !in old(writer.alreadyCreated) ==> firstErr == ClientWriteResult(mkdirOk, createOk, chmodOk, writeOk)
    ensures secondErr == None && secondSteps == []
  {
    var firstSteps;
    firstErr, firstSteps := writer.WriteClientExecutable(path, mkdirOk, createOk, chmodOk, writeOk);
    secondErr, secondSteps := writer.WriteClientExecutable(path, mkdirOk, createOk, chmodOk, writeOk);
  }
}

=== FILE: config.dfy ===
/**
 * Native-messaging host manifests, lib/config/config.go. `Manifest` is the
 * value of a `NativeMessagingConfig` struct; `NativeMessagingConfig` is the
 * struct behind a pointer, whose methods update its fields in place. File
 * contents and the JSON codec are inputs: `data` is what `os.ReadFile`
 * returned (`None` for an error), `decode` and `marshal` stand for
 * `encoding/json`, and a `FileSystem` object holds the files that are written.
 */
module NativeConfig {
  import opened Prelude
  import FilePaths
  import Browsers

  /** The JSON manifest a browser reads: `name`, `description`, `path`, `type`, `allowed_extensions`, `allowed_origins`. */
  datatype Manifest = Manifest(
    name: string,
    description: string,
    executable: string,
    kind: string,
    allowedExtensions: seq<string>,
    allowedOrigins: seq<string>)
  {
    /**
     * `GetExtensions`: the longer of the two extension lists (Firefox-family
     * manifests list extension ids, Chromium-family ones list origins); on a
     * tie, the origins.
     */
    function GetExtensions(): (r: seq<string>)
      ensures r == allowedExtensions || r == allowedOrigins
      ensures |r| >= |allowedExtensions| && |r| >= |allowedOrigins|
      ensures |allowedExtensions| == |allowedOrigins| ==> r == allowedOrigins
    {
      if |allowedExtensions| > |allowedOrigins| then allowedExtensions else allowedOrigins
    }
  }

  /** The zero value of the struct, which `ParseFile` is called on. */
  const EmptyManifest: Manifest := Manifest("", "", "", "", [], [])

  /** The only connection type the bridge supports. */
  const StdioType: string := "stdio"

  datatype ConfigError =
    | ReadFailed
    | DecodeFailed
    | UnsupportedType(executable: string, kind: string)   // ErrUnsupportedConfigType
    | NoExtensions                                         // ErrNoExtensions

  /** The executable of a manifest read from `path`: a relative one is taken relative to the manifest's folder. */
  function ResolveExecutable(path: string, executable: string): (r: string)
    ensures FilePaths.IsAbs(executable) ==> r == executable
    ensures HasSuffix(r, executable)
  {
    if FilePaths.IsAbs(executable) then executable else FilePaths.Join(FilePaths.Dir(path), executable)
  }

  /** A manifest at an absolute path always names an absolute executable once resolved. */
  lemma ResolvedIsAbsolute(path: string, executable: string)
    ensures FilePaths.IsAbs(path) ==> FilePaths.IsAbs(ResolveExecutable(path, executable))
  {
    if FilePaths.IsAbs(path) && !FilePaths.IsAbs(executable) {
      assert path[0] == '/';
      var i := FilePaths.LastSlash(path).value;
      var dir := FilePaths.Dir(path);
      if i > 0 {
        assert dir == path[..i];
      }
      assert dir != "" && dir != "." && dir[0] == '/';
      var r := FilePaths.Join(dir, executable);
      assert r[0] == '/';
    }
  }


  /**
   * The checks `ParseFile` makes after decoding, in their order: the type
   * first, then that at least one extension list is non-empty.
   */
  function Validate(m: Manifest): (r: Option<ConfigError>)
    ensures r.None? <==> m.kind == StdioType && (m.allowedExtensions != [] || m.allowedOrigins != [])
    ensures m.kind != StdioType ==> r == Some(UnsupportedType(m.executable, m.kind))
    ensures m.kind == StdioType && r.Some? ==> r == Some(NoExtensions)
  {
    if m.kind != StdioType then Some(UnsupportedType(m.executable, m.kind))
    else if |m.allowedExtensions| == 0 && |m.allowedOrigins| == 0 then Some(NoExtensions)
    else None
  }

  /** What `json.Unmarshal` makes of a file's bytes: no manifest (an error), the literal `null`, or an object. */
  datatype Decoded = Malformed | Null | Object(manifest: Manifest)

  /**
   * What `ParseFile` hands to `json.Unmarshal`: the address of its receiver
   * variable (`&config`, a `**NativeMessagingConfig`), as the source has it,
   * or the receiver `config` itself. Decoding `null` through the address sets
   * the receiver variable to nil; through the receiver it leaves the config
   * as it was.
   */
  datatype UnmarshalTarget = ReceiverAddress | Receiver

  /** How `ParseFile` ends: it returns an error or nil, or it panics. */
  datatype ParseOutcome = Returned(err: Option<ConfigError>) | Panicked

  /** The decode leaves `ParseFile`'s receiver variable nil, so reading `config.Executable` next dereferences nil. */
  predicate NilsReceiver(data: Option<seq<bv8>>, decode: seq<bv8> -> Decoded, target: UnmarshalTarget)
  {
    target == ReceiverAddress && data.Some? && decode(data.value).Null?
  }

  /** The config after a decode into a config holding `before`, when that decode is not an error. */
  function DecodedInto(before: Manifest, d: Decoded): (r: Option<Manifest>)
    ensures r.None? <==> d.Malformed?
    ensures d.Null? ==> r == Some(before)
  {
    match d
    case Malformed => None
    case Null => Some(before)
    case Object(m) => Some(m)
  }

  /**
   * The manifest a successful `ParseFile` leaves in a fresh config, or its
   * error, when the decode cannot nil the receiver: a `null` file then leaves
   * the zero manifest, whose empty type is unsupported.
   */
  function Parse(path: string, data: Option<seq<bv8>>, decode: seq<bv8> -> Decoded): (r: Result<Manifest, ConfigError>)
    ensures r.Ok? ==> r.value.kind == StdioType && r.value.GetExtensions() != []
    ensures r.Ok? && FilePaths.IsAbs(path) ==> FilePaths.IsAbs(r.value.executable)
    ensures r.Err? && data.None? ==> r.error == ReadFailed
    ensures data.Some? && decode(data.value).Null? ==> r == Err(UnsupportedType(ResolveExecutable(path, ""), ""))
  {
    if data.None? then Err(ReadFailed)
    else match DecodedInto(EmptyManifest, decode(data.value))
      case None => Err(DecodeFailed)
      case Some(d) =>
        var m := d.(executable := ResolveExecutable(path, d.executable));
        ResolvedIsAbsolute(path, d.executable);
        match Validate(m)
        case Some(e) => Err(e)
        case None => Ok(m)
  }

  /** How `ParseFile` on a fresh config ends, given what it hands to `json.Unmarshal`. */
  function ParseOutcomeOf(path: string, data: Option<seq<bv8>>, decode: seq<bv8> -> Decoded, target: UnmarshalTarget): (r: ParseOutcome)
    ensures r == Panicked <==> NilsReceiver(data, decode, target)
    ensures r == Returned(None) <==> !NilsReceiver(data, decode, target) && Parse(path, data, decode).Ok?
    ensures r.Returned? && r.err.Some? ==> Parse(path, data, decode) == Err(r.err.value)
  {
    if NilsReceiver(data, decode, target) then Panicked
    else match Parse(path, data, decode)
      case Ok(_) => Returned(None)
      case Err(e) => Returned(Some(e))
  }

  /**
   * A manifest file holding `null` panics as written, where decoding into
   * the receiver itself rejects it as an unsupported type.
   */
  lemma NullManifestPanics(path: string, data: seq<bv8>, decode: seq<bv8> -> Decoded)
    requires decode(data) == Null
    ensures ParseOutcomeOf(path, Some(data), decode, ReceiverAddress) == Panicked
    ensures ParseOutcomeOf(path, Some(data), decode, Receiver) == Returned(Some(UnsupportedType(ResolveExecutable(path, ""), "")))
  {
  }

  /** The files on disk, by path. */
  class FileSystem {
    var files: map<string, seq<bv8>>

    constructor (files: map<string, seq<bv8>>)
      ensures this.files == files
    {
      this.files := files;
    }
  }

  datatype WriteError = MarshalFailed | TempWriteFailed | RenameFailed

  /** The sibling file `WriteFile` writes first: `<base>.new` in the target's folder. */
  function TempPath(path: string): string
  {
    FilePaths.Join(FilePaths.Dir(path), FilePaths.Base(path) + ".new")
  }

  /** A `*NativeMessagingConfig`. */
  class NativeMessagingConfig {
    var name: string
    var description: string
    var executable: string
    var kind: string
    var allowedExtensions: seq<string>
    var allowedOrigins: seq<string>

    function Value(): Manifest
      reads this
    {
      Manifest(name, description, executable, kind, allowedExtensions, allowedOrigins)
    }

    /** `NativeMessagingConfig{}`. */
    constructor ()
      ensures Value() == EmptyManifest
    {
      name, description, executable, kind := "", "", "", "";
      allowedExtensions, allowedOrigins := [], [];
    }

    /**
     * `ParseFile`: decodes the file into this config, resolves a relative
     * executable against the file's folder, then validates. A failed check
     * leaves the decoded fields in place. With `ReceiverAddress`, as the
     * source has it, a `null` file nils the receiver variable and the next
     * read of `config.Executable` panics; the config itself is untouched.
     */
    method ParseFile(path: string, data: Option<seq<bv8>>, decode: seq<bv8> -> Decoded, target: UnmarshalTarget)
      returns (outcome: ParseOutcome)
      modifies this
      ensures outcome == Panicked <==> NilsReceiver(data, decode, target)
      ensures outcome == Panicked ==> Value() == old(Value())
      ensures data.None? ==> outcome == Returned(Some(ReadFailed)) && Value() == old(Value())
      ensures data.Some? && decode(data.value).Malformed? ==> outcome == Returned(Some(DecodeFailed)) && Value() == old(Value())
      ensures data.Some? && !decode(data.value).Malformed? && outcome.Returned? ==>
        var d := DecodedInto(old(Value()), decode(data.value)).value;
        Value() == d.(executable := ResolveExecutable(path, d.executable)) && outcome.err == Validate(Value())
      ensures old(Value()) == EmptyManifest ==> outcome == ParseOutcomeOf(path, data, decode, target)
      ensures old(Value()) == EmptyManifest && outcome == Returned(None) ==> Parse(path, data, decode) == Ok(Value())
    {
      if data.None? {
        return Returned(Some(ReadFailed));
      }
      var decoded := decode(data.value);
      match decoded {
        case Malformed =>
          return Returned(Some(DecodeFailed));
        case Null =>
          if target == ReceiverAddress {
            // The receiver variable is nil now: `config.Executable` dereferences it.
            return Panicked;
          }
        case Object(d) =>
          name, description, executable, kind := d.name, d.description, d.executable, d.kind;
          allowedExtensions, allowedOrigins := d.allowedExtensions, d.allowedOrigins;
      }
      ghost var before := Value();
      var err := ResolveAndValidate(path);
      ghost var parsed := DecodedInto(old(Value()), decoded).value;
      assert before == parsed;
      assert old(Value()) == EmptyManifest ==>
        Parse(path, data, decode) == if err.None? then Ok(Value()) else Err(err.value);
      return Returned(err);
    }

    /** The end of `ParseFile`: resolve a relative executable against the file's folder, then validate. */
    method ResolveAndValidate(path: string) returns (err: Option<ConfigError>)
      modifies this
      ensures Value() == old(Value()).(executable := ResolveExecutable(path, old(executable)))
      ensures err == Validate(Value())
    {
      if !FilePaths.IsAbs(executable) {
        executable := FilePaths.Join(FilePaths.Dir(path), executable);
      }
      if kind != StdioType {
        return Some(UnsupportedType(executable, kind));
      }
      if |allowedExtensions| == 0 && |allowedOrigins| == 0 {
        return Some(NoExtensions);
      }
      return None;
    }

    /** `ConvertToCustomConfig`: points the manifest at the client stub inside the browser's sandbox; nothing else changes. */
    method ConvertToCustomConfig(runtimeDir: string, browser: Browsers.Browser)
      requires Browsers.IsKnown(browser)
      modifies this
      ensures Value() == old(Value()).(executable := Browsers.GetClientPath(runtimeDir, browser).value)
      ensures FilePaths.Base(executable) == "client"
    {
      executable := Browsers.GetClientPath(runtimeDir, browser).value;
    }

    /**
     * `WriteFile`: marshals this config, writes it to the sibling `<base>.new`
     * and renames that over `path`. A failure of the folder creation is only
     * logged, so it is not modelled.
     */
    method WriteFile(path: string, fs: FileSystem, marshal: Manifest -> Option<seq<bv8>>, writeOk: bool, renameOk: bool)
      returns (err: Option<WriteError>)
      modifies fs
      ensures marshal(Value()).None? ==> err == Some(MarshalFailed) && fs.files == old(fs.files)
      ensures marshal(Value()).Some? && !writeOk ==> err == Some(TempWriteFailed) && fs.files == old(fs.files)
      ensures marshal(Value()).Some? && writeOk && !renameOk ==>
        err == Some(RenameFailed) && fs.files == old(fs.files)[TempPath(path) := marshal(Value()).value]
      ensures marshal(Value()).Some? && writeOk && renameOk ==>
        err == None && fs.files == (old(fs.files) - {TempPath(path)})[path := marshal(Value()).value]
    {
      var pathNew := FilePaths.Join(FilePaths.Dir(path), FilePaths.Base(path) + ".new");
      var data := marshal(Value());
      if data.None? {
        return Some(MarshalFailed);
      }
      if !writeOk {
        return Some(TempWriteFailed);
      }
      fs.files := fs.files[pathNew := data.value];
      if !renameOk {
        return Some(RenameFailed);
      }
      var moved := fs.files[pathNew];
      fs.files := (fs.files - {pathNew})[path := moved];
      return None;
    }
  }

  /**
   * `CreateCopy` (a value receiver): a new config with the same fields. Go
   * copies the two lists into new slices; here the new object is fresh, so
   * later updates to it leave the original alone.
   */
  method CreateCopy(m: Manifest) returns (r: NativeMessagingConfig)
    ensures fresh(r) && r.Value() == m
  {
    r := new NativeMessagingConfig();
    r.name, r.description, r.executable, r.kind := m.name, m.description, m.executable, m.kind;
    r.allowedExtensions, r.allowedOrigins := m.allowedExtensions, m.allowedOrigins;
  }

  /**
   * After a complete `WriteFile` the target holds the marshalled manifest and
   * the temporary file is gone; nothing else changed.
   */
  lemma WriteReplacesTarget(before: map<string, seq<bv8>>, path: string, data: seq<bv8>)
    requires FilePaths.Base(path) != "/"
    ensures var after := (before - {TempPath(path)})[path := data];
      after[path] == data && TempPath(path) !in after &&
      forall q | q in before && q != path && q != TempPath(path) :: q in after && after[q] == before[q]
  {
    FilePaths.TempPathIsSibling(path);
  }
}

=== FILE: config_file.dfy ===
/**
 * Discovery of the manifests installed for the browsers, lib/config/config_file.go.
 * A `NativeConfigFile` is a manifest together with its path and browser. The
 * directory listings, file contents and JSON decoder are inputs, gathered in
 * a `Disk`.
 */
module ConfigFiles {
  import opened Prelude
  import FilePaths
  import Browsers
  import Settings
  import opened NativeConfig

  datatype NativeConfigFile = NativeConfigFile(path: string, content: Manifest, browser: Browsers.Browser)
  {
    /** `Name`: the file name of the manifest, which the settings store; a single path element. */
    function Name(): (r: string)
      ensures r != "" && (r == "/" || '/' !in r)
    {
      FilePaths.Base(path)
    }

    /** `Matches`: the same browser and the same path; the contents are not compared. */
    function Matches(other: NativeConfigFile): (r: bool)
      ensures r ==> Name() == other.Name()
    {
      browser == other.browser && path == other.path
    }

    /**
     * The decision of `IsEnabled`: the file's name is in the enabled list of
     * its browser; a browser with no stored list has nothing enabled.
     */
    function IsEnabled(lists: map<Browsers.Browser, seq<string>>): (r: bool)
      ensures r <==> browser in lists && Name() in lists[browser]
    {
      Name() in Settings.EnabledIn(lists, browser)
    }
  }

  /** `Matches` is an equivalence, and files that match have the same name and enabled state. */
  lemma MatchesIsEquivalence(a: NativeConfigFile, b: NativeConfigFile, c: NativeConfigFile, lists: map<Browsers.Browser, seq<string>>)
    ensures a.Matches(a)
    ensures a.Matches(b) ==> b.Matches(a)
    ensures a.Matches(b) && b.Matches(c) ==> a.Matches(c)
    ensures a.Matches(b) ==> a.Name() == b.Name() && (a.IsEnabled(lists) <==> b.IsEnabled(lists))
  {
  }

  /** The name of a file found in a folder is the name it was listed under. */
  lemma NameOfListedFile(folder: string, name: FileName, content: Manifest, browser: Browsers.Browser)
    ensures NativeConfigFile(FilePaths.Join(folder, name), content, browser).Name() == name
  {
    FilePaths.BaseOfJoin(folder, name);
  }

  /**
   * The folder the browser reads manifests from: Firefox and Floorp share
   * the Mozilla folder, Chromium and Brave share the Chromium one.
   */
  function HostFolder(home: string, browser: Browsers.Browser): (r: Option<string>)
    ensures r.Some? <==> Browsers.IsKnown(browser)
  {
    if browser == Browsers.Firefox || browser == Browsers.Floorp then
      Some(FilePaths.JoinAll([home, ".mozilla", "native-messaging-hosts"]))
    else if browser == Browsers.Chromium || browser == Browsers.Brave then
      Some(FilePaths.JoinAll([home, ".config", "chromium", "NativeMessagingHosts"]))
    else None
  }

  /** Browsers of one family read the same folder. */
  lemma SharedHostFolders(home: string)
    ensures HostFolder(home, Browsers.Firefox) == HostFolder(home, Browsers.Floorp)
    ensures HostFolder(home, Browsers.Chromium) == HostFolder(home, Browsers.Brave)
  {
  }

  /**
   * `flatpakConfigPath`: where the browser's flatpak sandbox looks for the
   * manifest, under `~/.var/app/<flatpak id>`; `None` where the source panics.
   */
  function FlatpakConfigPath(home: string, file: NativeConfigFile): (r: Option<string>)
    ensures r.Some? <==> Browsers.IsKnown(file.browser)
    ensures r.Some? && file.Name() != "/" ==> FilePaths.Base(r.value) == file.Name()
  {
    var filename := FilePaths.Base(file.path);
    match Browsers.GetFlatpakId(file.browser)
    case None => None
    case Some(id) =>
      var parts :=
        if file.browser == Browsers.Firefox || file.browser == Browsers.Floorp then
          [home, ".var", "app", id, ".mozilla", "native-messaging-hosts", filename]
        else if file.browser == Browsers.Chromium then
          [home, ".var", "app", id, "config", "chromium", "NativeMessagingHosts", filename]
        else
          [home, ".var", "app", id, "config", "BraveSoftware", "Brave-Browser", "NativeMessagingHosts", filename];
      if filename == "/" then Some(FilePaths.JoinAll(parts))
      else
        FilePaths.BaseOfJoinAll(parts);
        Some(FilePaths.JoinAll(parts))
  }

  /**
   * `writeConfigToFlatpakDir`: a copy of the manifest, pointed at the client
   * stub, is written over the sandbox's copy. An old copy is removed first
   * (a failed removal is only logged and is not modelled), so after any
   * failure the sandbox holds no copy at all. A name of "/" is excluded
   * because no listed file has it (`NameOfListedFile`).
   */
  method WriteConfigToFlatpakDir(file: NativeConfigFile, home: string, runtimeDir: string, fs: FileSystem,
                                 marshal: Manifest -> Option<seq<bv8>>, writeOk: bool, renameOk: bool)
    returns (err: Option<WriteError>)
    requires Browsers.IsKnown(file.browser) && file.Name() != "/"
    modifies fs
    ensures var custom := file.content.(executable := Browsers.GetClientPath(runtimeDir, file.browser).value);
      err == None <==> marshal(custom).Some? && writeOk && renameOk
    ensures var custom := file.content.(executable := Browsers.GetClientPath(runtimeDir, file.browser).value);
      var target := FlatpakConfigPath(home, file).value;
      err == None ==> target in fs.files && fs.files[target] == marshal(custom).value
    ensures var target := FlatpakConfigPath(home, file).value;
      err.Some? ==> target !in fs.files
    ensures var target := FlatpakConfigPath(home, file).value;
      forall p | p != target && p != NativeConfig.TempPath(target) ::
        (p in fs.files <==> p in old(fs.files)) && (p in fs.files ==> fs.files[p] == old(fs.files)[p])
  {
    var flatpakPath := FlatpakConfigPath(home, file).value;
    FilePaths.TempPathIsSibling(flatpakPath);
    if flatpakPath in fs.files {
      fs.files := fs.files - {flatpakPath};
    }
    ghost var custom := file.content.(executable := Browsers.GetClientPath(runtimeDir, file.browser).value);
    var flatpakConfig := CreateCopy(file.content);
    flatpakConfig.ConvertToCustomConfig(runtimeDir, file.browser);
    assert flatpakConfig.Value() == custom;
    err := flatpakConfig.WriteFile(flatpakPath, fs, marshal, writeOk, renameOk);
  }

  /** A directory entry name: never empty and never containing '/'. */
  type FileName = s: string | s != "" && '/' !in s witness "x"

  datatype DirEntry = DirEntry(name: FileName, isDir: bool)

  /** What `os.ReadDir` gives for a folder. */
  datatype Listing = Missing | Unreadable | Entries(entries: seq<DirEntry>)

  datatype CollectError = BrowserNotKnown | FolderUnreadable(folder: string)

  /** The entries kept as manifests: files (not folders) whose extension is ".json", in listing order. */
  function JsonFiles(entries: seq<DirEntry>): (r: seq<FileName>)
    ensures forall i | 0 <= i < |r| :: FilePaths.Ext(r[i]) == ".json"
    ensures forall e | e in entries && !e.isDir && FilePaths.Ext(e.name) == ".json" :: e.name in r
    ensures forall i | 0 <= i < |r| :: DirEntry(r[i], false) in entries
  {
    if entries == [] then []
    else
      var init := JsonFiles(entries[..|entries| - 1]);
      var last := entries[|entries| - 1];
      assert entries == entries[..|entries| - 1] + [last];
      if !last.isDir && FilePaths.Ext(last.name) == ".json" then init + [last.name] else init
  }

  /** A single entry is kept exactly when it is a ".json" file. */
  lemma JsonFilesOne(e: DirEntry)
    ensures JsonFiles([e]) == if !e.isDir && FilePaths.Ext(e.name) == ".json" then [e.name] else []
  {
    assert [e][..0] == [];
  }

  /**
   * `JsonFiles` keeps the listing's order and every repeat: a listing split
   * in two filters to the two parts' files in turn.
   */
  lemma {:induction false} JsonFilesAppend(s: seq<DirEntry>, t: seq<DirEntry>)
    ensures JsonFiles(s + t) == JsonFiles(s) + JsonFiles(t)
    decreases |t|
  {
    if t == [] {
      assert s + t == s;
    } else {
      var init := t[..|t| - 1];
      assert (s + t)[..|s + t| - 1] == s + init;
      assert (s + t)[|s + t| - 1] == t[|t| - 1];
      JsonFilesAppend(s, init);
    }
  }

  /** Each name placed in `folder`. */
  function JoinEach(folder: string, names: seq<FileName>): (r: seq<string>)
    ensures |r| == |names|
    ensures forall i | 0 <= i < |r| :: r[i] == FilePaths.Join(folder, names[i])
  {
    if names == [] then [] else JoinEach(folder, names[..|names| - 1]) + [FilePaths.Join(folder, names[|names| - 1])]
  }

  /** `collectConfigFilePathsInFolder`. */
  method CollectConfigFilePathsInFolder(folder: string, listing: Listing) returns (paths: seq<string>, err: Option<CollectError>)
    ensures listing.Missing? ==> paths == [] && err == None
    ensures listing.Unreadable? ==> paths == [] && err == Some(FolderUnreadable(folder))
    ensures listing.Entries? ==> err == None && paths == JoinEach(folder, JsonFiles(listing.entries))
  {
    paths := [];
    if listing.Missing? {
      return paths, None;
    }
    if listing.Unreadable? {
      return paths, Some(FolderUnreadable(folder));
    }
    var files := listing.entries;
    var i := 0;
    while i < |files|
      invariant 0 <= i <= |files|
      invariant paths == JoinEach(folder, JsonFiles(files[..i]))
    {
      assert files[..i + 1][..i] == files[..i];
      if !files[i].isDir && FilePaths.Ext(files[i].name) == ".json" {
        paths := paths + [FilePaths.Join(folder, files[i].name)];
      }
      i := i + 1;
    }
    assert files[..i] == files;
    return paths, None;
  }

  /** Every path collected from a folder is a ".json" file in it. */
  lemma CollectedPathsAreJson(folder: string, entries: seq<DirEntry>)
    ensures forall p | p in JoinEach(folder, JsonFiles(entries)) :: FilePaths.Ext(p) == ".json"
  {
    var names := JsonFiles(entries);
    forall p | p in JoinEach(folder, names)
      ensures FilePaths.Ext(p) == ".json"
    {
      var i :| 0 <= i < |names| && JoinEach(folder, names)[i] == p;
      FilePaths.ExtOfJoin(folder, names[i]);
    }
  }

  /** The file system as the collection sees it. */
  datatype Disk = Disk(
    home: string,
    listings: string -> Listing,
    read: string -> Option<seq<bv8>>,
    decode: seq<bv8> -> Decoded)

  /** The manifests among `paths` that parse, for `browser`, in order; the others are skipped. */
  function ParsedFiles(paths: seq<string>, browser: Browsers.Browser, disk: Disk): (r: seq<NativeConfigFile>)
    ensures |r| <= |paths|
  {
    if paths == [] then []
    else
      var init := ParsedFiles(paths[..|paths| - 1], browser, disk);
      var path := paths[|paths| - 1];
      assert paths == paths[..|paths| - 1] + [path];
      var parsed := Parse(path, disk.read(path), disk.decode);
      if parsed.Ok? then init + [NativeConfigFile(path, parsed.value, browser)] else init
  }

  /** Every file kept is of the browser, from the paths, and holds what its path parses to. */
  lemma {:induction false} ParsedFilesSound(paths: seq<string>, browser: Browsers.Browser, disk: Disk)
    ensures forall f | f in ParsedFiles(paths, browser, disk) ::
      f.browser == browser && f.path in paths && Parse(f.path, disk.read(f.path), disk.decode) == Ok(f.content)
  {
    if paths != [] {
      var init := paths[..|paths| - 1];
      var path := paths[|paths| - 1];
      assert paths == init + [path];
      ParsedFilesSound(init, browser, disk);
    }
  }

  /** Every path that parses is kept, with what it parses to. */
  lemma {:induction false} ParsedFilesComplete(paths: seq<string>, browser: Browsers.Browser, disk: Disk)
    ensures forall p | p in paths && Parse(p, disk.read(p), disk.decode).Ok? ::
      NativeConfigFile(p, Parse(p, disk.read(p), disk.decode).value, browser) in ParsedFiles(paths, browser, disk)
  {
    if paths != [] {
      var init := paths[..|paths| - 1];
      var path := paths[|paths| - 1];
      assert paths == init + [path];
      ParsedFilesComplete(init, browser, disk);
      forall p | p in paths && Parse(p, disk.read(p), disk.decode).Ok?
        ensures NativeConfigFile(p, Parse(p, disk.read(p), disk.decode).value, browser) in ParsedFiles(paths, browser, disk)
      {
        if p != path {
          assert p in init;
        }
      }
    }
  }

  /** A single path gives its file exactly when it parses. */
  lemma ParsedFilesOne(p: string, browser: Browsers.Browser, disk: Disk)
    ensures ParsedFiles([p], browser, disk) ==
      var parsed := Parse(p, disk.read(p), disk.decode);
      if parsed.Ok? then [NativeConfigFile(p, parsed.value, browser)] else []
  {
    assert [p][..0] == [];
  }

  /**
   * `ParsedFiles` keeps the order of the paths: paths split in two give the
   * two parts' files in turn.
   */
  lemma {:induction false} ParsedFilesAppend(s: seq<string>, t: seq<string>, browser: Browsers.Browser, disk: Disk)
    ensures ParsedFiles(s + t, browser, disk) == ParsedFiles(s, browser, disk) + ParsedFiles(t, browser, disk)
    decreases |t|
  {
    if t == [] {
      assert s + t == s;
    } else {
      var init := t[..|t| - 1];
      assert (s + t)[..|s + t| - 1] == s + init;
      assert (s + t)[|s + t| - 1] == t[|t| - 1];
      ParsedFilesAppend(s, init, browser, disk);
    }
  }

  /** The files a collection found, and the error that ended it. */
  datatype Collected = Collected(files: seq<NativeConfigFile>, err: Option<CollectError>)

  /** What `CollectConfigFiles` gives for one browser. */
  function CollectOne(browser: Browsers.Browser, disk: Disk): (r: Collected)
    ensures r.err.None? ==> forall f | f in r.files :: f.browser == browser
    ensures r.err.Some? ==> r.files == []
    ensures !Browsers.IsKnown(browser) ==> r == Collected([], Some(BrowserNotKnown))
    ensures Browsers.IsKnown(browser) ==>
      var folder := HostFolder(disk.home, browser).value;
      match disk.listings(folder)
      case Missing => r == Collected([], None)
      case Unreadable => r == Collected([], Some(FolderUnreadable(folder)))
      case Entries(entries) => r == Collected(ParsedFiles(JoinEach(folder, JsonFiles(entries)), browser, disk), None)
  {
    match HostFolder(disk.home, browser)
    case None => Collected([], Some(BrowserNotKnown))
    case Some(folder) =>
      match disk.listings(folder)
      case Missing => Collected([], None)
      case Unreadable => Collected([], Some(FolderUnreadable(folder)))
      case Entries(entries) =>
        var paths := JoinEach(folder, JsonFiles(entries));
        ParsedFilesSound(paths, browser, disk);
        Collected(ParsedFiles(paths, browser, disk), None)
  }

  /** The collection of each browser on its own. */
  function PerBrowser(browsers: seq<Browsers.Browser>, disk: Disk): (r: seq<Collected>)
    ensures |r| == |browsers|
    ensures forall i | 0 <= i < |r| :: r[i] == CollectOne(browsers[i], disk)
  {
    seq(|browsers|, i requires 0 <= i < |browsers| => CollectOne(browsers[i], disk))
  }

  /**
   * Collection over several browsers, given each one's result: the files
   * concatenated, stopping at the first error with what was found before it.
   */
  function CollectEach(results: seq<Collected>, found: seq<NativeConfigFile>): (r: Collected)
    ensures HasPrefix(r.files, found)
  {
    if results == [] then Collected(found, None)
    else if results[0].err.Some? then Collected(found, results[0].err)
    else
      var r := CollectEach(results[1..], found + results[0].files);
      assert (found + results[0].files)[..|found|] == found;
      r
  }

  /** `CollectConfigFiles`: one browser, or every browser in `GetAllBrowsers` order for `AllBrowsers`. */
  function CollectSpec(browser: Browsers.Browser, disk: Disk): Collected
  {
    if browser == Browsers.AllBrowsers then CollectEach(PerBrowser(Browsers.GetAllBrowsers(), disk), [])
    else CollectOne(browser, disk)
  }

  /** The files of each result, concatenated. */
  function AllFiles(results: seq<Collected>): seq<NativeConfigFile>
  {
    if results == [] then [] else results[0].files + AllFiles(results[1..])
  }

  /** When no browser fails, the files are those of each browser in turn. */
  lemma {:induction false} CollectEachConcatenates(results: seq<Collected>, found: seq<NativeConfigFile>)
    requires forall i | 0 <= i < |results| :: results[i].err.None?
    ensures CollectEach(results, found) == Collected(found + AllFiles(results), None)
  {
    if results != [] {
      CollectEachConcatenates(results[1..], found + results[0].files);
      assert found + results[0].files + AllFiles(results[1..]) == found + AllFiles(results);
    }
  }

  /** A failing browser ends the collection with its error; later browsers are not looked at. */
  lemma {:induction false} CollectEachStopsAtError(results: seq<Collected>, found: seq<NativeConfigFile>, k: nat)
    requires k < |results| && results[k].err.Some?
    requires forall i | 0 <= i < k :: results[i].err.None?
    ensures CollectEach(results, found) == Collected(found + AllFiles(results[..k]), results[k].err)
  {
    if k == 0 {
      assert results[..0] == [];
    } else {
      CollectEachStopsAtError(results[1..], found + results[0].files, k - 1);
      assert results[1..][..k - 1] == results[..k][1..];
      assert found + results[0].files + AllFiles(results[1..][..k - 1]) == found + AllFiles(results[..k]);
    }
  }

  /** `CollectConfigFiles`; it calls itself for each browser when asked for all of them. */
  method CollectConfigFiles(browser: Browsers.Browser, disk: Disk) returns (files: seq<NativeConfigFile>, err: Option<CollectError>)
    ensures Collected(files, err) == CollectSpec(browser, disk)
    decreases if browser == Browsers.AllBrowsers then 1 else 0
  {
    if browser != Browsers.AllBrowsers {
      files, err := CollectHostConfigFiles(browser, disk);
      return;
    }
    files := [];
    var all := Browsers.GetAllBrowsers();
    ghost var results := PerBrowser(all, disk);
    var i := 0;
    while i < |all|
      invariant 0 <= i <= |all|
      invariant CollectEach(results[i..], files) == CollectEach(results, [])
    {
      assert all[i] in all;
      var newFiles, e := CollectConfigFiles(all[i], disk);
      assert Collected(newFiles, e) == results[i];
      if e.Some? {
        return files, e;
      }
      assert results[i..][1..] == results[i + 1..];
      files := files + newFiles;
      i := i + 1;
    }
    return files, None;
  }

  /** The single-browser part of `CollectConfigFiles`: list the browser's folder and keep the manifests that parse. */
  method CollectHostConfigFiles(browser: Browsers.Browser, disk: Disk) returns (files: seq<NativeConfigFile>, err: Option<CollectError>)
    ensures Collected(files, err) == CollectOne(browser, disk)
  {
    files := [];
    var hostFolder := HostFolder(disk.home, browser);
    if hostFolder.None? {
      return [], Some(BrowserNotKnown);
    }
    var paths, e := CollectConfigFilePathsInFolder(hostFolder.value, disk.listings(hostFolder.value));
    if e.Some? {
      return [], e;
    }
    files := ParseEach(paths, browser, disk);
    return files, None;
  }

  /** The loop of `CollectConfigFiles` that parses each path into a fresh config and skips those that fail. */
  method ParseEach(paths: seq<string>, browser: Browsers.Browser, disk: Disk) returns (files: seq<NativeConfigFile>)
    ensures files == ParsedFiles(paths, browser, disk)
  {
    files := [];
    var j := 0;
    while j < |paths|
      invariant 0 <= j <= |paths|
      invariant files == ParsedFiles(paths[..j], browser, disk)
    {
      assert paths[..j + 1][..j] == paths[..j];
      var decoded := new NativeMessagingConfig();
      var outcome := decoded.ParseFile(paths[j], disk.read(paths[j]), disk.decode, Receiver);
      if outcome == Returned(None) {
        files := files + [NativeConfigFile(paths[j], decoded.Value(), browser)];
      }
      j := j + 1;
    }
    assert paths[..j] == paths;
  }

  /** Every file collected for one browser is a ".json" file of its host folder that parses to the content recorded. */
  lemma CollectedFilesParse(browser: Browsers.Browser, disk: Disk)
    ensures var c := CollectOne(browser, disk);
      forall f | f in c.files ::
        f.browser == browser && FilePaths.Ext(f.path) == ".json" &&
        Parse(f.path, disk.read(f.path), disk.decode) == Ok(f.content)
  {
    var c := CollectOne(browser, disk);
    if c.files != [] {
      var folder := HostFolder(disk.home, browser).value;
      var paths := JoinEach(folder, JsonFiles(disk.listings(folder).entries));
      assert c.files == ParsedFiles(paths, browser, disk);
      ParsedFilesSound(paths, browser, disk);
      CollectedPathsAreJson(folder, disk.listings(folder).entries);
    }
  }

  /** The files among `files` that are enabled, in order. */
  function EnabledOnly(files: seq<NativeConfigFile>, lists: map<Browsers.Browser, seq<string>>): (r: seq<NativeConfigFile>)
    ensures forall i | 0 <= i < |r| :: r[i] in files && r[i].IsEnabled(lists)
    ensures forall f | f in files && f.IsEnabled(lists) :: f in r
  {
    if files == [] then []
    else
      var init := EnabledOnly(files[..|files| - 1], lists);
      var last := files[|files| - 1];
      assert files == files[..|files| - 1] + [last];
      if last.IsEnabled(lists) then init + [last] else init
  }

  /** A single file is kept exactly when it is enabled. */
  lemma EnabledOnlyOne(f: NativeConfigFile, lists: map<Browsers.Browser, seq<string>>)
    ensures EnabledOnly([f], lists) == if f.IsEnabled(lists) then [f] else []
  {
    assert [f][..0] == [];
  }

  /**
   * `EnabledOnly` keeps the order and every repeat: files split in two give
   * the two parts' enabled files in turn.
   */
  lemma {:induction false} EnabledOnlyAppend(s: seq<NativeConfigFile>, t: seq<NativeConfigFile>, lists: map<Browsers.Browser, seq<string>>)
    ensures EnabledOnly(s + t, lists) == EnabledOnly(s, lists) + EnabledOnly(t, lists)
    decreases |t|
  {
    if t == [] {
      assert s + t == s;
    } else {
      var init := t[..|t| - 1];
      assert (s + t)[..|s + t| - 1] == s + init;
      assert (s + t)[|s + t| - 1] == t[|t| - 1];
      EnabledOnlyAppend(s, init, lists);
    }
  }

  /**
   * `CollectEnabledConfigFiles`: the collected files that are enabled, or the
   * collection's error together with whatever was collected before it.
   */
  method CollectEnabledConfigFiles(browser: Browsers.Browser, disk: Disk, lists: map<Browsers.Browser, seq<string>>)
    returns (files: seq<NativeConfigFile>, err: Option<CollectError>)
    ensures var c := CollectSpec(browser, disk);
      err == c.err && (err.Some? ==> files == c.files) && (err.None? ==> files == EnabledOnly(c.files, lists))
  {
    var configFiles, e := CollectConfigFiles(browser, disk);
    if e.Some? {
      return configFiles, e;
    }
    files := FilterEnabled(configFiles, lists);
    return files, None;
  }

  /** The filter loop of `CollectEnabledConfigFiles`. */
  method FilterEnabled(configFiles: seq<NativeConfigFile>, lists: map<Browsers.Browser, seq<string>>) returns (files: seq<NativeConfigFile>)
    ensures files == EnabledOnly(configFiles, lists)
  {
    files := [];
    var i := 0;
    while i < |configFiles|
      invariant 0 <= i <= |configFiles|
      invariant files == EnabledOnly(configFiles[..i], lists)
    {
      assert configFiles[..i + 1] == configFiles[..i] + [configFiles[i]];
      EnabledOnlyAppend(configFiles[..i], [configFiles[i]], lists);
      EnabledOnlyOne(configFiles[i], lists);
      if configFiles[i].IsEnabled(lists) {
        files := files + [configFiles[i]];
      }
      i := i + 1;
    }
    assert configFiles[..i] == configFiles;
  }
}

=== FILE: connection.dfy ===
/**
 * One browser connection, lib/server/connection.go:27-100. `handleConnection`
 * registers with the server's wait group, starts the native application with
 * two pipes, starts two copy goroutines and returns when the server stops or
 * one copy ends. The operating-system calls are inputs (`Environment`); what
 * the handler does is recorded as a trace of `Step`s, and its deferred calls
 * are kept on an explicit stack that runs last-in first-out when it returns.
 */
module Connections {
  import opened Prelude
  import Framing

  /** The effects of a connection handler that other parts of the server observe. */
  datatype Step =
    | WaitGroupAdd      // wg.Add(1)
    | WaitGroupDone     // wg.Done()
    | CopyWaitJoined    // copyWait.Wait() returned
    | ConnClosed        // conn.Close()
    | CommandWaited     // cmd.Wait()
    | StdinClosed       // stdin.Close()
    | StdoutClosed      // stdout.Close()
    | CommandStarted    // cmd.Start() succeeded
    | CopiesStarted     // both customCopyGo goroutines started
    | CopyErrorLogged   // a copy ended with an error other than io.EOF

  /** What ends an `io.Copy`: `nil` (the source reached its end), `io.EOF`, or another error. */
  datatype CopyResult = CopyNil | CopyEof | CopyFailed

  /** What the handler's `select` receives first. */
  datatype Wake = StopSignal | CopyExited(result: CopyResult)

  /** The results of the calls into the operating system. */
  datatype Environment = Environment(stdinPipeOk: bool, stdoutPipeOk: bool, startOk: bool, wake: Wake)

  datatype SetupError = StdinPipeFailed | StdoutPipeFailed | StartFailed

  /** How the handler ends: it returns an error or nil, or its goroutine panics. */
  datatype Outcome = Returned(err: Option<SetupError>) | Panicked

  /**
   * Where the deferred `Close` of a pipe is placed: before the pipe's error
   * check, as the source has it, or after it.
   */
  datatype PipeDefer = DeferBeforeCheck | DeferAfterCheck

  /** All three setup calls succeed. */
  predicate SetupSucceeds(env: Environment)
  {
    env.stdinPipeOk && env.stdoutPipeOk && env.startOk
  }

  /** The first setup call that fails. */
  function FirstFailure(env: Environment): SetupError
    requires !SetupSucceeds(env)
  {
    if !env.stdinPipeOk then StdinPipeFailed
    else if !env.stdoutPipeOk then StdoutPipeFailed
    else StartFailed
  }

  /**
   * The wait group is entered first and left last, exactly once each: every
   * other step happens while the server's `connectionWait` counts this
   * connection.
   */
  predicate Bracketed(trace: seq<Step>)
  {
    |trace| >= 2 && trace[0] == WaitGroupAdd && trace[|trace| - 1] == WaitGroupDone &&
    WaitGroupAdd !in trace[1..] && WaitGroupDone !in trace[..|trace| - 1]
  }

  /**
   * The steps of one connection: the wait group is entered, the application
   * runs if it could be started, and the deferred calls run in reverse order
   * of their `defer` statements, the pipes' closes first.
   */
  function ConnectionTrace(env: Environment): (t: seq<Step>)
    ensures Bracketed(t)
    ensures ConnClosed in t && CommandWaited in t && CopyWaitJoined in t
  {
    if !env.stdinPipeOk then
      [WaitGroupAdd, CommandWaited, ConnClosed, CopyWaitJoined, WaitGroupDone]
    else if !env.stdoutPipeOk then
      [WaitGroupAdd, StdinClosed, CommandWaited, ConnClosed, CopyWaitJoined, WaitGroupDone]
    else if !env.startOk then
      [WaitGroupAdd, StdoutClosed, StdinClosed, CommandWaited, ConnClosed, CopyWaitJoined, WaitGroupDone]
    else if env.wake == CopyExited(CopyFailed) then
      [WaitGroupAdd, CommandStarted, CopiesStarted, CopyErrorLogged,
       StdoutClosed, StdinClosed, CommandWaited, ConnClosed, CopyWaitJoined, WaitGroupDone]
    else
      [WaitGroupAdd, CommandStarted, CopiesStarted,
       StdoutClosed, StdinClosed, CommandWaited, ConnClosed, CopyWaitJoined, WaitGroupDone]
  }

  /** How `handleConnection` ends, given where the pipes' `Close` is deferred. */
  function ConnectionOutcome(env: Environment, placement: PipeDefer): (outcome: Outcome)
    ensures outcome == Returned(None) <==> SetupSucceeds(env)
    ensures !SetupSucceeds(env) && placement == DeferAfterCheck ==> outcome == Returned(Some(FirstFailure(env)))
    ensures placement == DeferBeforeCheck ==>
      (outcome == Panicked <==> !env.stdinPipeOk || !env.stdoutPipeOk) &&
      (!SetupSucceeds(env) && outcome != Panicked ==> outcome == Returned(Some(StartFailed)))
  {
    if SetupSucceeds(env) then Returned(None)
    else if placement == DeferBeforeCheck && (!env.stdinPipeOk || !env.stdoutPipeOk) then Panicked
    else Returned(Some(FirstFailure(env)))
  }

  /**
   * A failing `StdinPipe` ends the handler in a panic as written, where
   * deferring the close after the check returns the pipe error.
   */
  lemma NilPipeCloseEndsInPanic(wake: Wake)
    ensures var env := Environment(false, true, true, wake);
      ConnectionOutcome(env, DeferBeforeCheck) == Panicked &&
      ConnectionOutcome(env, DeferAfterCheck) == Returned(Some(StdinPipeFailed))
  {
  }

  /** The copies start exactly when setup succeeds, and a copy error is logged exactly when a started copy fails. */
  lemma ConnectionTraceCopies(env: Environment)
    ensures CopiesStarted in ConnectionTrace(env) <==> SetupSucceeds(env)
    ensures CopyErrorLogged in ConnectionTrace(env) <==> SetupSucceeds(env) && env.wake == CopyExited(CopyFailed)
  {
  }

  /**
   * `handleConnection`, with the deferred calls on an explicit stack. With
   * `DeferBeforeCheck` a failing `StdinPipe` or `StdoutPipe` leaves a nil
   * pipe whose `Close` method value the `defer` statement evaluates, which
   * panics (the Go specification, "Selectors"); the calls deferred before it
   * still run.
   */
  method HandleConnection(env: Environment, placement: PipeDefer) returns (outcome: Outcome, trace: seq<Step>)
    ensures outcome == ConnectionOutcome(env, placement)
    ensures trace == ConnectionTrace(env)
  {
    trace := [WaitGroupAdd];
    // The deferred calls, the next one to run first.
    var deferred: seq<Step> := [WaitGroupDone];
    deferred := [CopyWaitJoined] + deferred;
    deferred := [ConnClosed] + deferred;
    deferred := [CommandWaited] + deferred;

    if !env.stdinPipeOk {
      outcome := if placement == DeferBeforeCheck then Panicked else Returned(Some(StdinPipeFailed));
      trace := trace + deferred;
      assert trace == [WaitGroupAdd, CommandWaited, ConnClosed, CopyWaitJoined, WaitGroupDone];
      return;
    }
    deferred := [StdinClosed] + deferred;

    if !env.stdoutPipeOk {
      outcome := if placement == DeferBeforeCheck then Panicked else Returned(Some(StdoutPipeFailed));
      trace := trace + deferred;
      assert trace == [WaitGroupAdd, StdinClosed, CommandWaited, ConnClosed, CopyWaitJoined, WaitGroupDone];
      return;
    }
    deferred := [StdoutClosed] + deferred;

    if !env.startOk {
      outcome := Returned(Some(StartFailed));
      trace := trace + deferred;
      assert trace == [WaitGroupAdd, StdoutClosed, StdinClosed, CommandWaited, ConnClosed, CopyWaitJoined, WaitGroupDone];
      return;
    }
    trace := trace + [CommandStarted, CopiesStarted];

    match env.wake {
      case StopSignal =>
      case CopyExited(result) =>
        if result == CopyFailed {
          trace := trace + [CopyErrorLogged];
        }
    }
    outcome := Returned(None);
    trace := trace + deferred;
    if env.wake == CopyExited(CopyFailed) {
      assert trace == [WaitGroupAdd, CommandStarted, CopiesStarted, CopyErrorLogged,
        StdoutClosed, StdinClosed, CommandWaited, ConnClosed, CopyWaitJoined, WaitGroupDone];
    } else {
      assert trace == [WaitGroupAdd, CommandStarted, CopiesStarted,
        StdoutClosed, StdinClosed, CommandWaited, ConnClosed, CopyWaitJoined, WaitGroupDone];
    }
  }

  /** How the source of a copy ends after its chunks: at its end, or with a read error. */
  datatype SourceEnd = AtEnd | ReadError

  /** The sniffer's log for a run of chunks, each sniffed on its own. */
  function SniffChunks(chunks: seq<seq<bv8>>, isObject: seq<bv8> -> bool, isReceiver: bool): (r: seq<Framing.Report>)
    ensures r == [] <==> forall i | 0 <= i < |chunks| :: |chunks[i]| < 4
    ensures forall i | 0 <= i < |r| && r[i].Printed? :: r[i].colour == Framing.ColourOf(isReceiver)
  {
    if chunks == [] then []
    else
      SniffChunks(chunks[..|chunks| - 1], isObject, isReceiver)
      + Framing.Sniff(Framing.AsWritten, chunks[|chunks| - 1], isObject, isReceiver)
  }

  /**
   * `customCopyGo`: `io.Copy` from a source that yields `chunks` into a
   * `MultiWriter` of the destination and a sniffer. The destination accepts
   * the first `dstFailsAt` chunks and fails on the next; a chunk the
   * destination refuses never reaches the sniffer. The result is what the
   * goroutine sends on the exit channel.
   */
  method CustomCopy(chunks: seq<seq<bv8>>, sourceEnd: SourceEnd, dstFailsAt: nat, sniffer: Framing.Sniffer, isObject: seq<bv8> -> bool)
    returns (delivered: seq<seq<bv8>>, log: seq<Framing.Report>, result: CopyResult)
    ensures var k := if dstFailsAt < |chunks| then dstFailsAt else |chunks|;
      delivered == chunks[..k] && log == SniffChunks(chunks[..k], isObject, sniffer.isReceiver)
    ensures result == CopyNil <==> dstFailsAt >= |chunks| && sourceEnd == AtEnd
    ensures result != CopyEof
  {
    delivered := [];
    log := [];
    var i := 0;
    while i < |chunks|
      invariant 0 <= i <= |chunks| && i <= dstFailsAt
      invariant delivered == chunks[..i]
      invariant log == SniffChunks(chunks[..i], isObject, sniffer.isReceiver)
    {
      if i == dstFailsAt {
        result := CopyFailed;
        return;
      }
      delivered := delivered + [chunks[i]];
      var n, err, chunkLog := sniffer.Write(chunks[i], isObject);
      assert chunks[..i + 1][..i] == chunks[..i];
      log := log + chunkLog;
      i := i + 1;
    }
    assert chunks[..i] == chunks;
    // io.Copy reports reaching the end of its source as nil, never as io.EOF.
    result := if sourceEnd == AtEnd then CopyNil else CopyFailed;
  }
}

=== FILE: framing.dfy ===
/**
 * The message sniffer of lib/server/connection.go. Every chunk copied between a
 * browser connection and the native application is also written to a
 * `sniffer`, which reads it as native-messaging frames (a 4-byte length
 * followed by a JSON message) and logs each message. The length prefix is
 * decoded with Go's operator precedence as written (see `SizeAsWritten`); the
 * rule a browser actually uses is 32-bit little-endian (`SizeLittleEndian`),
 * so the frame specification takes the rule as a parameter.
 */
module Framing {
  import opened Prelude

  /** How a 4-byte prefix is read as a message length. */
  datatype LengthRule = AsWritten | LittleEndian

  /**
   * The length as connection.go:115-118 computes it. In Go `<<` and `*` have
   * the same precedence and associate to the left, so `b3 << 8 * 3` is
   * `(b3 << 8) * 3`; the four parts are or-ed together in a `uint32`.
   */
  function SizeAsWritten(b0: bv8, b1: bv8, b2: bv8, b3: bv8): (r: bv32)
  {
    (((b3 as bv32) << 8) * 3) | (((b2 as bv32) << 8) * 2) | ((b1 as bv32) << 8) | (b0 as bv32)
  }

  /** The length the native-messaging protocol means: unsigned 32-bit, least significant byte first. */
  function SizeLittleEndian(b0: bv8, b1: bv8, b2: bv8, b3: bv8): (r: int)
  {
    b0 as int + 256 * (b1 as int) + 65536 * (b2 as int) + 16777216 * (b3 as int)
  }

  /** The message length a 4-byte prefix announces under `rule`. */
  function MessageSize(rule: LengthRule, prefix: seq<bv8>): (r: int)
    requires |prefix| == 4
    ensures 0 <= r < 0x1_0000_0000
    ensures rule == AsWritten ==> r < 0x4_0000
  {
    match rule
    case AsWritten =>
      AsWrittenBound(prefix[0], prefix[1], prefix[2], prefix[3]);
      SizeAsWritten(prefix[0], prefix[1], prefix[2], prefix[3]) as int
    case LittleEndian => SizeLittleEndian(prefix[0], prefix[1], prefix[2], prefix[3])
  }

  /** Each part of the as-written length stays below 2^18, so the `uint32` never wraps. */
  lemma AsWrittenBound(b0: bv8, b1: bv8, b2: bv8, b3: bv8)
    ensures SizeAsWritten(b0, b1, b2, b3) < 0x4_0000
    ensures SizeAsWritten(b0, b1, b2, b3) as int < 0x4_0000
  {
    var x := SizeAsWritten(b0, b1, b2, b3);
    assert x < 0x4_0000;
  }

  /** With the two high bytes zero, the or-ed parts do not overlap: they add. */
  lemma AsWrittenLowBits(b0: bv8, b1: bv8)
    ensures SizeAsWritten(b0, b1, 0, 0) == (b0 as bv32) + (b1 as bv32) * 256
  {
  }

  lemma LowBitsValue(b0: bv8, b1: bv8)
    ensures ((b0 as bv32) + (b1 as bv32) * 256) as int == b0 as int + 256 * (b1 as int)
  {
  }

  /** With the two high bytes zero, the as-written length is the little-endian one. */
  lemma AsWrittenLowBytes(b0: bv8, b1: bv8)
    ensures SizeAsWritten(b0, b1, 0, 0) as int == SizeLittleEndian(b0, b1, 0, 0)
  {
    AsWrittenLowBits(b0, b1);
    LowBitsValue(b0, b1);
  }

  /** Both rules agree on every length below 65536. */
  lemma RulesAgreeBelow64KiB(prefix: seq<bv8>)
    requires |prefix| == 4
    requires MessageSize(LittleEndian, prefix) < 0x1_0000
    ensures MessageSize(AsWritten, prefix) == MessageSize(LittleEndian, prefix)
  {
    var b0, b1, b2, b3 := prefix[0], prefix[1], prefix[2], prefix[3];
    ZeroByte(b2);
    ZeroByte(b3);
    AsWrittenLowBytes(b0, b1);
  }

  lemma ZeroByte(b: bv8)
    ensures b as int == 0 <==> b == 0
  {
  }

  /**
   * The as-written decoding misreads larger lengths: a message of 65536
   * bytes, announced as 00 00 01 00, is read as 512 bytes long.
   */
  lemma AsWrittenMisreads64KiB()
    ensures MessageSize(LittleEndian, [0, 0, 1, 0]) == 0x1_0000
    ensures MessageSize(AsWritten, [0, 0, 1, 0]) == 512
  {
    var x := SizeAsWritten(0, 0, 1, 0);
    assert x == 512;
  }

  /** The two colours `pterm` prints with: browser-to-application traffic, and the reverse. */
  datatype Colour = Rgb(red: int, green: int, blue: int)

  const ReceiverColour: Colour := Rgb(200, 100, 0)
  const SenderColour: Colour := Rgb(0, 100, 100)

  function ColourOf(isReceiver: bool): Colour
  {
    if isReceiver then ReceiverColour else SenderColour
  }

  /**
   * One line of the sniffer's log: a decoded message printed in a colour, or
   * one of the two errors that end a chunk (a length running past the chunk,
   * with the bytes after the prefix; a message that is not a JSON object).
   * The printed text lists the object's keys in Go's random map order; the
   * model keeps the message bytes instead.
   */
  datatype Report = Printed(colour: Colour, message: seq<bv8>) | TooLarge(rest: seq<bv8>) | NotAnObject(message: seq<bv8>)

  /**
   * What the sniffer logs for one chunk `p`: frames are read from the front
   * until fewer than 4 bytes remain or a frame fails. `isObject` is
   * `json.Unmarshal` into a `map[string]any` succeeding.
   */
  function Sniff(rule: LengthRule, p: seq<bv8>, isObject: seq<bv8> -> bool, isReceiver: bool): (r: seq<Report>)
    ensures r != [] <==> |p| >= 4
    ensures 4 * |r| <= |p|
    ensures forall i | 0 <= i < |r| && r[i].Printed? :: r[i].colour == ColourOf(isReceiver)
    decreases |p|
  {
    if |p| < 4 then []
    else
      var size := MessageSize(rule, p[..4]);
      var rest := p[4..];
      if size > |rest| then [TooLarge(rest)]
      else if !isObject(rest[..size]) then [NotAnObject(rest[..size])]
      else [Printed(ColourOf(isReceiver), rest[..size])] + Sniff(rule, rest[size..], isObject, isReceiver)
  }

  /** Every line but the last is a message printed in `colour`. */
  predicate OnlyLastFails(log: seq<Report>, colour: Colour)
  {
    forall i | 0 <= i < |log| - 1 :: log[i].Printed? && log[i].colour == colour
  }

  /** Only the last line of a chunk's log can be an error: a failed frame ends the chunk. */
  lemma {:induction false} ErrorsEndTheLog(rule: LengthRule, p: seq<bv8>, isObject: seq<bv8> -> bool, isReceiver: bool)
    ensures OnlyLastFails(Sniff(rule, p, isObject, isReceiver), ColourOf(isReceiver))
    decreases |p|
  {
    if |p| >= 4 {
      var size := MessageSize(rule, p[..4]);
      var rest := p[4..];
      if size <= |rest| && isObject(rest[..size]) {
        ErrorsEndTheLog(rule, rest[size..], isObject, isReceiver);
        var tail := Sniff(rule, rest[size..], isObject, isReceiver);
        var log := Sniff(rule, p, isObject, isReceiver);
        assert log == [Printed(ColourOf(isReceiver), rest[..size])] + tail;
        forall i | 0 <= i < |log| - 1
          ensures log[i].Printed? && log[i].colour == ColourOf(isReceiver)
        {
          if i > 0 {
            assert log[i] == tail[i - 1];
          }
        }
      }
    }
  }

  /** A `sniffer`: the extension it logs for and the direction of its copy. */
  datatype Sniffer = Sniffer(extensionName: string, isReceiver: bool)
  {
    /**
     * `sniffer.Write`: logs the frames of `p` and always reports the whole
     * chunk written and no error, so the copy it is attached to never stops
     * because of it.
     */
    method Write(p: seq<bv8>, isObject: seq<bv8> -> bool) returns (n: int, err: Option<string>, log: seq<Report>)
      ensures n == |p| && err == None
      ensures log == Sniff(AsWritten, p, isObject, isReceiver)
    {
      n := |p|;
      err := None;
      log := [];
      var q := p;
      while |q| >= 4
        invariant log + Sniff(AsWritten, q, isObject, isReceiver) == Sniff(AsWritten, p, isObject, isReceiver)
        decreases |q|
      {
        ghost var frame := q;
        var prefix := q[..4];
        q := q[4..];
        var size := SizeAsWritten(prefix[0], prefix[1], prefix[2], prefix[3]) as int;
        assert size == MessageSize(AsWritten, frame[..4]);
        if size > |q| {
          assert Sniff(AsWritten, frame, isObject, isReceiver) == [TooLarge(q)];
          log := log + [TooLarge(q)];
          return;
        }
        var message := q[..size];
        q := q[size..];
        if !isObject(message) {
          assert Sniff(AsWritten, frame, isObject, isReceiver) == [NotAnObject(message)];
          log := log + [NotAnObject(message)];
          return;
        }
        assert Sniff(AsWritten, frame, isObject, isReceiver) ==
          [Printed(ColourOf(isReceiver), message)] + Sniff(AsWritten, q, isObject, isReceiver);
        log := log + [Printed(ColourOf(isReceiver), message)];
      }
    }
  }

  /** A byte of the value `k`, counted up from zero. */
  function ToByte(k: int): (b: bv8)
    requires 0 <= k < 256
    ensures b as int == k
  {
    if k == 0 then 0 else ToByte(k - 1) + 1
  }

  /** The base-256 digits of a 32-bit length. */
  lemma Base256Digits(n: int)
    requires 0 <= n < 0x1_0000_0000
    ensures n == n % 256 + 256 * (n / 256 % 256) + 65536 * (n / 65536 % 256) + 16777216 * (n / 16777216)
    ensures n / 16777216 < 256
  {
    var q1 := n / 256;
    var q2 := q1 / 256;
    var q3 := q2 / 256;
    assert n == q1 * 256 + n % 256;
    assert q1 == q2 * 256 + q1 % 256;
    assert q2 == q3 * 256 + q2 % 256;
    assert q2 == n / 65536;
    assert q3 == n / 16777216;
  }

  /** The 4-byte prefix a browser sends before a message of `n` bytes. */
  function LengthPrefix(n: int): (r: seq<bv8>)
    requires 0 <= n < 0x1_0000_0000
    ensures |r| == 4 && MessageSize(LittleEndian, r) == n
  {
    Base256Digits(n);
    [ToByte(n % 256), ToByte(n / 256 % 256), ToByte(n / 65536 % 256), ToByte(n / 16777216)]
  }

  /** A message as it travels on the wire. */
  function EncodeFrame(message: seq<bv8>): seq<bv8>
    requires |message| < 0x1_0000_0000
  {
    LengthPrefix(|message|) + message
  }

  predicate Framable(messages: seq<seq<bv8>>)
  {
    forall i | 0 <= i < |messages| :: |messages[i]| < 0x1_0000_0000
  }

  /** Several messages written back to back. */
  function EncodeFrames(messages: seq<seq<bv8>>): seq<bv8>
    requires Framable(messages)
  {
    if messages == [] then [] else EncodeFrame(messages[0]) + EncodeFrames(messages[1..])
  }

  /** The log of a chunk in which every message is printed. */
  function AllPrinted(messages: seq<seq<bv8>>, isReceiver: bool): (r: seq<Report>)
    ensures |r| == |messages|
    ensures forall i | 0 <= i < |r| :: r[i] == Printed(ColourOf(isReceiver), messages[i])
  {
    if messages == [] then [] else [Printed(ColourOf(isReceiver), messages[0])] + AllPrinted(messages[1..], isReceiver)
  }

  /** A whole frame at the front of a chunk is printed, and reading goes on after it. */
  lemma SniffFrame(rule: LengthRule, message: seq<bv8>, rest: seq<bv8>, isObject: seq<bv8> -> bool, isReceiver: bool)
    requires |message| < 0x1_0000_0000 && isObject(message)
    requires rule == AsWritten ==> |message| < 0x1_0000
    ensures Sniff(rule, EncodeFrame(message) + rest, isObject, isReceiver)
      == [Printed(ColourOf(isReceiver), message)] + Sniff(rule, rest, isObject, isReceiver)
  {
    var p := EncodeFrame(message) + rest;
    var prefix := LengthPrefix(|message|);
    assert p[..4] == prefix;
    assert p[4..] == message + rest;
    if rule == AsWritten {
      RulesAgreeBelow64KiB(prefix);
    }
    assert (message + rest)[..|message|] == message;
    assert (message + rest)[|message|..] == rest;
  }

  /**
   * Frames in one chunk are all printed, in order: under the little-endian
   * rule for any lengths, and as written for messages below 64 KiB.
   */
  lemma {:induction false} SniffFrames(rule: LengthRule, messages: seq<seq<bv8>>, isObject: seq<bv8> -> bool, isReceiver: bool)
    requires Framable(messages)
    requires forall i | 0 <= i < |messages| :: isObject(messages[i])
    requires rule == AsWritten ==> forall i | 0 <= i < |messages| :: |messages[i]| < 0x1_0000
    ensures Sniff(rule, EncodeFrames(messages), isObject, isReceiver) == AllPrinted(messages, isReceiver)
  {
    if messages != [] {
      SniffFrame(rule, messages[0], EncodeFrames(messages[1..]), isObject, isReceiver);
      SniffFrames(rule, messages[1..], isObject, isReceiver);
    }
  }

  /**
   * A frame cut by a chunk boundary is not printed: the first part is
   * reported too large, and the sniffer keeps no state to join it to the next
   * chunk.
   */
  lemma CutFrameIsLost(rule: LengthRule, message: seq<bv8>, cut: nat, isObject: seq<bv8> -> bool, isReceiver: bool)
    requires |message| < 0x1_0000_0000
    requires rule == AsWritten ==> |message| < 0x1_0000
    requires cut < |message|
    ensures Sniff(rule, EncodeFrame(message)[..4 + cut], isObject, isReceiver) == [TooLarge(message[..cut])]
  {
    var p := EncodeFrame(message)[..4 + cut];
    var prefix := LengthPrefix(|message|);
    assert p[..4] == prefix;
    assert p[4..] == message[..cut];
    if rule == AsWritten {
      RulesAgreeBelow64KiB(prefix);
    }
  }

  /**
   * Under the as-written rule a 65536-byte message is misread: only its first
   * 512 bytes are taken as the message.
   */
  lemma LargeFrameMisread(message: seq<bv8>, isObject: seq<bv8> -> bool, isReceiver: bool)
    requires |message| == 0x1_0000
    requires !isObject(message[..512])
    ensures Sniff(AsWritten, EncodeFrame(message), isObject, isReceiver) == [NotAnObject(message[..512])]
    ensures Sniff(LittleEndian, EncodeFrame(message), isObject, isReceiver) != [NotAnObject(message[..512])]
  {
    var p := EncodeFrame(message);
    var prefix := LengthPrefix(|message|);
    assert p[..4] == prefix;
    assert p[4..] == message;
    assert prefix == [0, 0, 1, 0];
    AsWrittenMisreads64KiB();
    var log := Sniff(LittleEndian, p, isObject, isReceiver);
    assert |log| >= 1 && (log[0].Printed? || log[0].NotAnObject?) && log[0].message == message;
    assert |message[..512]| != |message|;
  }
}

=== FILE: manager.dfy ===
/**
 * The server supervisor of lib/server/manager.go: the registry of running
 * servers (`runningServers`), the list of channels told when the last server
 * exits (`allExitSignalSafe`), the cases of `serverManagerRoutine`, and the
 * reconciliation pass `refreshEnabledServers`. Goroutines and channels become
 * sequential steps: a sent token is recorded in `ExitSignal.sent`, a request
 * to start or stop a server is returned to the caller.
 */
module Supervisor {
  import opened Prelude
  import Browsers
  import Settings
  import ConfigFiles
  import Servers

  /** `allExitSignalSafe`: the channels waiting for every server to exit. */
  class ExitSignal {
    var receivers: seq<Settings.Channel>
    /** The tokens sent so far, oldest first. */
    var sent: seq<Settings.Channel>

    constructor ()
      ensures receivers == [] && sent == []
    {
      receivers := [];
      sent := [];
    }

    /** `subscribe`: appends the channel. */
    method Subscribe(c: Settings.Channel)
      modifies this
      ensures receivers == old(receivers) + [c] && sent == old(sent)
    {
      receivers := receivers + [c];
    }

    /** `broadcast`: one token to each receiver in subscription order, then the list is emptied. */
    method Broadcast()
      modifies this
      ensures sent == old(sent) + old(receivers) && receivers == []
    {
      var i := 0;
      while i < |receivers|
        invariant 0 <= i <= |receivers|
        invariant receivers == old(receivers) && sent == old(sent) + receivers[..i]
      {
        sent := sent + [receivers[i]];
        i := i + 1;
      }
      assert receivers[..i] == receivers;
      receivers := [];
    }
  }

  /** A receiver is told once: a second broadcast with no new subscription sends nothing. */
  method BroadcastTwice(signal: ExitSignal)
    modifies signal
    ensures signal.sent == old(signal.sent) + old(signal.receivers)
  {
    signal.Broadcast();
    signal.Broadcast();
  }

  /** What identifies a server to the reconciliation: its manifest and its extension. */
  datatype ServerKey = ServerKey(configFile: ConfigFiles.NativeConfigFile, extensionName: string)

  function KeyOf(s: Servers.Server): ServerKey
  {
    ServerKey(s.configFile, s.extensionName)
  }

  function Keys(servers: seq<Servers.Server>): (r: seq<ServerKey>)
    ensures |r| == |servers| && forall i | 0 <= i < |r| :: r[i] == KeyOf(servers[i])
  {
    seq(|servers|, i requires 0 <= i < |servers| => KeyOf(servers[i]))
  }

  /** `runningExtensions`: the extensions served for manifests that match `config`, in registry order. */
  function RunningExtensions(config: ConfigFiles.NativeConfigFile, running: seq<ServerKey>): seq<string>
  {
    if running == [] then []
    else
      var init := RunningExtensions(config, running[..|running| - 1]);
      var last := running[|running| - 1];
      if config.Matches(last.configFile) then init + [last.extensionName] else init
  }

  /** The extensions listed for `config` are exactly those of the running servers whose manifest matches it. */
  lemma {:induction false} RunningExtensionsExact(config: ConfigFiles.NativeConfigFile, running: seq<ServerKey>)
    ensures forall k | k in running && config.Matches(k.configFile) :: k.extensionName in RunningExtensions(config, running)
    ensures forall e | e in RunningExtensions(config, running) ::
      exists k | k in running :: config.Matches(k.configFile) && k.extensionName == e
  {
    if running != [] {
      var init := running[..|running| - 1];
      var last := running[|running| - 1];
      assert running == init + [last];
      RunningExtensionsExact(config, init);
      var r := RunningExtensions(config, running);
      forall k | k in running && config.Matches(k.configFile)
        ensures k.extensionName in r
      {
        if k != last {
          assert k in init;
        }
      }
      forall e | e in r
        ensures exists k | k in running :: config.Matches(k.configFile) && k.extensionName == e
      {
        if e in RunningExtensions(config, init) {
          var k :| k in init && config.Matches(k.configFile) && k.extensionName == e;
          assert k in running;
        } else {
          assert last in running && config.Matches(last.configFile) && last.extensionName == e;
        }
      }
    }
  }

  /** The servers started for one enabled manifest: its allowed extensions not yet served, in order, repeats kept. */
  function StartsFor(config: ConfigFiles.NativeConfigFile, extensions: seq<string>, runningExtensions: seq<string>): seq<ServerKey>
  {
    if extensions == [] then []
    else
      var init := StartsFor(config, extensions[..|extensions| - 1], runningExtensions);
      var last := extensions[|extensions| - 1];
      if last in runningExtensions then init else init + [ServerKey(config, last)]
  }

  /** Every server started for a manifest is for that manifest and one of its allowed, unserved extensions. */
  lemma {:induction false} StartsForSound(config: ConfigFiles.NativeConfigFile, extensions: seq<string>, runningExtensions: seq<string>)
    ensures forall k | k in StartsFor(config, extensions, runningExtensions) ::
      k.configFile == config && k.extensionName in extensions && k.extensionName !in runningExtensions
  {
    if extensions != [] {
      var init := extensions[..|extensions| - 1];
      var last := extensions[|extensions| - 1];
      assert extensions == init + [last];
      StartsForSound(config, init, runningExtensions);
    }
  }

  /** Every allowed extension not yet served gets a server. */
  lemma {:induction false} StartsForComplete(config: ConfigFiles.NativeConfigFile, extensions: seq<string>, runningExtensions: seq<string>)
    ensures forall e | e in extensions && e !in runningExtensions :: ServerKey(config, e) in StartsFor(config, extensions, runningExtensions)
  {
    if extensions != [] {
      var init := extensions[..|extensions| - 1];
      var last := extensions[|extensions| - 1];
      assert extensions == init + [last];
      StartsForComplete(config, init, runningExtensions);
      forall e | e in extensions && e !in runningExtensions
        ensures ServerKey(config, e) in StartsFor(config, extensions, runningExtensions)
      {
        if e != last {
          assert e in init;
        }
      }
    }
  }

  /**
   * The servers a pass starts: for each enabled manifest in order, each
   * allowed extension that no server of a matching manifest serves.
   */
  function Starts(enabled: seq<ConfigFiles.NativeConfigFile>, running: seq<ServerKey>): seq<ServerKey>
  {
    if enabled == [] then []
    else
      var init := Starts(enabled[..|enabled| - 1], running);
      var last := enabled[|enabled| - 1];
      assert enabled == enabled[..|enabled| - 1] + [last];
      init + StartsFor(last, last.content.allowedExtensions, RunningExtensions(last, running))
  }

  /** The running servers a pass stops: those whose own manifest is no longer enabled, in registry order. */
  function Disabled(servers: seq<Servers.Server>, lists: map<Browsers.Browser, seq<string>>): (r: seq<Servers.Server>)
    ensures forall s | s in servers && !s.configFile.IsEnabled(lists) :: s in r
    ensures forall s | s in r :: s in servers && !s.configFile.IsEnabled(lists)
  {
    if servers == [] then []
    else
      var init := Disabled(servers[..|servers| - 1], lists);
      var last := servers[|servers| - 1];
      assert servers == servers[..|servers| - 1] + [last];
      if last.configFile.IsEnabled(lists) then init else init + [last]
  }

  /** Every server a pass starts is an allowed, unserved extension of an enabled manifest. */
  lemma {:induction false} StartsSound(enabled: seq<ConfigFiles.NativeConfigFile>, running: seq<ServerKey>)
    ensures forall k | k in Starts(enabled, running) ::
      k.configFile in enabled && k.extensionName in k.configFile.content.allowedExtensions &&
      k.extensionName !in RunningExtensions(k.configFile, running)
  {
    if enabled != [] {
      var init := enabled[..|enabled| - 1];
      var last := enabled[|enabled| - 1];
      var head := Starts(init, running);
      var tail := StartsFor(last, last.content.allowedExtensions, RunningExtensions(last, running));
      assert Starts(enabled, running) == head + tail;
      StartsSound(init, running);
      StartsForSound(last, last.content.allowedExtensions, RunningExtensions(last, running));
      forall k: ServerKey | k in head + tail
        ensures k.configFile in enabled && k.extensionName in k.configFile.content.allowedExtensions &&
          k.extensionName !in RunningExtensions(k.configFile, running)
      {
        if k in head {
          assert k.configFile in init;
          assert enabled == init + [last];
        } else {
          assert k in tail;
        }
      }
    }
  }

  /** Every allowed, unserved extension of an enabled manifest is started by the pass. */
  lemma {:induction false} StartsComplete(enabled: seq<ConfigFiles.NativeConfigFile>, running: seq<ServerKey>)
    ensures forall c, e | c in enabled && e in c.content.allowedExtensions && e !in RunningExtensions(c, running) ::
      ServerKey(c, e) in Starts(enabled, running)
  {
    if enabled != [] {
      var init := enabled[..|enabled| - 1];
      var last := enabled[|enabled| - 1];
      var head := Starts(init, running);
      var tail := StartsFor(last, last.content.allowedExtensions, RunningExtensions(last, running));
      assert Starts(enabled, running) == head + tail;
      StartsComplete(init, running);
      StartsForComplete(last, last.content.allowedExtensions, RunningExtensions(last, running));
      forall c, e | c in enabled && e in c.content.allowedExtensions && e !in RunningExtensions(c, running)
        ensures ServerKey(c, e) in head + tail
      {
        if c == last {
          assert ServerKey(c, e) in tail;
        } else {
          assert enabled == init + [last];
          assert c in init;
          assert ServerKey(c, e) in head;
        }
      }
    }
  }

  /** A single extension starts one server exactly when it is not served. */
  lemma StartsForOne(config: ConfigFiles.NativeConfigFile, e: string, runningExtensions: seq<string>)
    ensures StartsFor(config, [e], runningExtensions) == if e in runningExtensions then [] else [ServerKey(config, e)]
  {
    assert [e][..0] == [];
  }

  /**
   * `StartsFor` follows the allowed list's order and repeats: a list split
   * in two starts the two parts' servers in turn.
   */
  lemma {:induction false} StartsForAppend(config: ConfigFiles.NativeConfigFile, s: seq<string>, t: seq<string>, runningExtensions: seq<string>)
    ensures StartsFor(config, s + t, runningExtensions) == StartsFor(config, s, runningExtensions) + StartsFor(config, t, runningExtensions)
    decreases |t|
  {
    if t == [] {
      assert s + t == s;
    } else {
      var init := t[..|t| - 1];
      assert (s + t)[..|s + t| - 1] == s + init;
      assert (s + t)[|s + t| - 1] == t[|t| - 1];
      StartsForAppend(config, s, init, runningExtensions);
    }
  }

  /** A single manifest starts its own unserved extensions. */
  lemma StartsOne(c: ConfigFiles.NativeConfigFile, running: seq<ServerKey>)
    ensures Starts([c], running) == StartsFor(c, c.content.allowedExtensions, RunningExtensions(c, running))
  {
    assert [c][..0] == [];
  }

  /** One more enabled manifest adds its own starts after those of the manifests before it. */
  lemma StartsStep(done: seq<ConfigFiles.NativeConfigFile>, c: ConfigFiles.NativeConfigFile, running: seq<ServerKey>)
    ensures Starts(done + [c], running) == Starts(done, running) + StartsFor(c, c.content.allowedExtensions, RunningExtensions(c, running))
  {
    StartsAppend(done, [c], running);
    StartsOne(c, running);
  }

  /**
   * `Starts` follows the order of the enabled manifests: manifests split in
   * two start the two parts' servers in turn.
   */
  lemma {:induction false} StartsAppend(s: seq<ConfigFiles.NativeConfigFile>, t: seq<ConfigFiles.NativeConfigFile>, running: seq<ServerKey>)
    ensures Starts(s + t, running) == Starts(s, running) + Starts(t, running)
    decreases |t|
  {
    if t == [] {
      assert s + t == s;
    } else {
      var init := t[..|t| - 1];
      var last := t[|t| - 1];
      assert (s + t)[..|s + t| - 1] == s + init;
      assert (s + t)[|s + t| - 1] == last;
      StartsAppend(s, init, running);
    }
  }

  /** A manifest all of whose allowed extensions are served starts nothing. */
  lemma {:induction false} StartsForServed(config: ConfigFiles.NativeConfigFile, extensions: seq<string>, runningExtensions: seq<string>)
    requires forall e | e in extensions :: e in runningExtensions
    ensures StartsFor(config, extensions, runningExtensions) == []
  {
    if extensions != [] {
      StartsForServed(config, extensions[..|extensions| - 1], runningExtensions);
    }
  }

  /** A pass in which every allowed extension of every enabled manifest is served starts nothing. */
  lemma {:induction false} StartsServed(enabled: seq<ConfigFiles.NativeConfigFile>, running: seq<ServerKey>)
    requires forall c, e | c in enabled && e in c.content.allowedExtensions :: e in RunningExtensions(c, running)
    ensures Starts(enabled, running) == []
  {
    if enabled != [] {
      var last := enabled[|enabled| - 1];
      StartsServed(enabled[..|enabled| - 1], running);
      StartsForServed(last, last.content.allowedExtensions, RunningExtensions(last, running));
    }
  }

  /**
   * A pass is stable: once the servers it starts are registered, the same
   * pass over the same manifests starts nothing more.
   */
  lemma PassIsStable(enabled: seq<ConfigFiles.NativeConfigFile>, running: seq<ServerKey>)
    ensures Starts(enabled, running + Starts(enabled, running)) == []
  {
    var started := Starts(enabled, running);
    var after := running + started;
    StartsComplete(enabled, running);
    forall c, e | c in enabled && e in c.content.allowedExtensions
      ensures e in RunningExtensions(c, after)
    {
      RunningExtensionsExact(c, running);
      RunningExtensionsExact(c, after);
      if e in RunningExtensions(c, running) {
        var k :| k in running && c.Matches(k.configFile) && k.extensionName == e;
        assert k in after;
      } else {
        assert ServerKey(c, e) in started;
        assert ServerKey(c, e) in after;
      }
    }
    StartsServed(enabled, after);
  }

  /** A pass over servers that already serve every allowed extension of every enabled manifest starts nothing. */
  lemma ServedPassStartsNothing(enabled: seq<ConfigFiles.NativeConfigFile>, running: seq<ServerKey>)
    requires forall c, e | c in enabled && e in c.content.allowedExtensions :: ServerKey(c, e) in running
    ensures Starts(enabled, running) == []
  {
    forall c, e | c in enabled && e in c.content.allowedExtensions
      ensures e in RunningExtensions(c, running)
    {
      RunningExtensionsExact(c, running);
      assert ServerKey(c, e) in running;
    }
    StartsServed(enabled, running);
  }

  /** An extension listed twice in one manifest starts two servers for it. */
  lemma RepeatedExtensionStartsTwice(c: ConfigFiles.NativeConfigFile, e: string)
    requires c.content.allowedExtensions == [e, e]
    ensures Starts([c], []) == [ServerKey(c, e), ServerKey(c, e)]
  {
    var key := ServerKey(c, e);
    assert [c][..0] == [];
    assert RunningExtensions(c, []) == [];
    assert [e, e][..1] == [e];
    assert [e][..0] == [];
    assert StartsFor(c, [e], []) == [key];
    assert StartsFor(c, [e, e], []) == [key, key];
  }

  /**
   * A server whose manifest is still enabled is not stopped, even when its
   * extension is no longer in the manifest's allowed list.
   */
  lemma DroppedExtensionKeepsRunning(servers: seq<Servers.Server>, lists: map<Browsers.Browser, seq<string>>, s: Servers.Server)
    requires s in servers && s.configFile.IsEnabled(lists)
    requires s.extensionName !in s.configFile.content.allowedExtensions
    ensures s !in Disabled(servers, lists)
  {
  }

  datatype RefreshError = CollectFailed(cause: ConfigFiles.CollectError)

  /** `runningServersSafe` together with the exit signal it fires. */
  class Manager {
    var servers: seq<Servers.Server>
    const exitSignal: ExitSignal

    constructor ()
      ensures servers == [] && fresh(exitSignal) && exitSignal.receivers == [] && exitSignal.sent == []
    {
      servers := [];
      exitSignal := new ExitSignal();
    }

    /**
     * The start case of `serverManagerRoutine`: the server is appended, run,
     * and, once `run` returns, every entry of it is removed; the exit signal
     * fires when that leaves the registry empty.
     */
    method StartServer(server: Servers.Server, listenOk: bool, events: seq<Servers.AcceptEvent>, readyConnections: nat)
      returns (outcome: Servers.RunOutcome)
      modifies this, server, exitSignal
      ensures outcome.Serving? ==>
        servers == old(servers) + [server] &&
        exitSignal.receivers == old(exitSignal.receivers) && exitSignal.sent == old(exitSignal.sent)
      ensures outcome.Returned? ==> servers == RemoveAll(old(servers), server)
      ensures outcome.Returned? && servers == [] ==>
        exitSignal.sent == old(exitSignal.sent) + old(exitSignal.receivers) && exitSignal.receivers == []
      ensures outcome.Returned? && servers != [] ==>
        exitSignal.receivers == old(exitSignal.receivers) && exitSignal.sent == old(exitSignal.sent)
      ensures old(server.running) ==> outcome == Servers.Returned(Some(Servers.AlreadyRunning))
    {
      servers := servers + [server];
      var dispatched, drained, permissionRequest;
      outcome, dispatched, drained, permissionRequest := server.Run(listenOk, events, readyConnections);
      if outcome.Serving? {
        return;
      }
      RemoveAllAppend(old(servers), [server], server);
      assert RemoveAll([server], server) == [];
      servers := RemoveAll(servers, server);
      if servers == [] {
        exitSignal.Broadcast();
      }
    }

    /** The stop-all case of `serverManagerRoutine`: every registered server is ended; an empty registry fires the exit signal at once. */
    method StopAll()
      modifies exitSignal, set s | s in servers
      ensures forall s | s in servers :: s.running == old(s.running) && (old(s.running) ==> s.stopPending)
      ensures forall s | s in servers && !old(s.running) :: s.stopPending == old(s.stopPending)
      ensures old(servers) == [] ==>
        exitSignal.sent == old(exitSignal.sent) + old(exitSignal.receivers) && exitSignal.receivers == []
      ensures old(servers) != [] ==>
        exitSignal.receivers == old(exitSignal.receivers) && exitSignal.sent == old(exitSignal.sent)
    {
      var i := 0;
      while i < |servers|
        invariant 0 <= i <= |servers|
        invariant exitSignal.receivers == old(exitSignal.receivers) && exitSignal.sent == old(exitSignal.sent)
        invariant forall s | s in servers :: s.running == old(s.running)
        invariant forall s | s in servers[..i] :: old(s.running) ==> s.stopPending
        invariant forall s | s in servers && s !in servers[..i] :: s.stopPending == old(s.stopPending)
        invariant forall s | s in servers && !old(s.running) :: s.stopPending == old(s.stopPending)
      {
        assert servers[..i + 1] == servers[..i] + [servers[i]];
        var blocked := servers[i].End();
        i := i + 1;
      }
      assert servers[..i] == servers;
      if servers == [] {
        exitSignal.Broadcast();
      }
    }

    /** `StopServers`: subscribes `allExited`, then asks for every server to stop. */
    method StopServers(allExited: Settings.Channel)
      modifies exitSignal, set s | s in servers
      ensures forall s | s in servers :: s.running == old(s.running) && (old(s.running) ==> s.stopPending)
      ensures servers == [] ==>
        exitSignal.sent == old(exitSignal.sent) + old(exitSignal.receivers) + [allExited] && exitSignal.receivers == []
      ensures servers != [] ==>
        exitSignal.receivers == old(exitSignal.receivers) + [allExited] && exitSignal.sent == old(exitSignal.sent)
    {
      exitSignal.Subscribe(allExited);
      StopAll();
    }

    /**
     * `refreshEnabledServers`: collects the enabled manifests; on an error
     * nothing is started or stopped; with none enabled every server is to be
     * stopped (`stopAll`); otherwise the servers of disabled manifests are to
     * be stopped and the missing ones started.
     */
    method RefreshEnabledServers(browser: Browsers.Browser, disk: ConfigFiles.Disk, lists: map<Browsers.Browser, seq<string>>)
      returns (err: Option<RefreshError>, stopAll: bool, stops: seq<Servers.Server>, starts: seq<ServerKey>)
      ensures var c := ConfigFiles.CollectSpec(browser, disk);
        c.err.Some? ==> err == Some(CollectFailed(c.err.value)) && !stopAll && stops == [] && starts == []
      ensures var c := ConfigFiles.CollectSpec(browser, disk);
        var enabled := ConfigFiles.EnabledOnly(c.files, lists);
        c.err.None? ==>
          err == None && (stopAll <==> enabled == []) &&
          (enabled == [] ==> stops == [] && starts == []) &&
          (enabled != [] ==> stops == Disabled(servers, lists) && starts == Starts(enabled, Keys(servers)))
    {
      stops, starts := [], [];
      var enabledConfigs, e := ConfigFiles.CollectEnabledConfigFiles(browser, disk, lists);
      if e.Some? {
        return Some(CollectFailed(e.value)), false, stops, starts;
      }
      if |enabledConfigs| == 0 {
        return None, true, stops, starts;
      }

      stops := StopsOfDisabled(lists);
      starts := StartsOfEnabled(enabledConfigs);
      return None, false, stops, starts;
    }

    /** The first loop of `refreshEnabledServers`: the registered servers whose manifest is no longer enabled. */
    method StopsOfDisabled(lists: map<Browsers.Browser, seq<string>>) returns (stops: seq<Servers.Server>)
      ensures stops == Disabled(servers, lists)
    {
      stops := [];
      var i := 0;
      while i < |servers|
        invariant 0 <= i <= |servers|
        invariant stops == Disabled(servers[..i], lists)
      {
        assert servers[..i + 1][..i] == servers[..i];
        if !servers[i].configFile.IsEnabled(lists) {
          stops := stops + [servers[i]];
        }
        i := i + 1;
      }
      assert servers[..i] == servers;
    }

    /** The second loop of `refreshEnabledServers`: the servers to start for the enabled manifests. */
    method StartsOfEnabled(enabledConfigs: seq<ConfigFiles.NativeConfigFile>) returns (starts: seq<ServerKey>)
      ensures starts == Starts(enabledConfigs, Keys(servers))
    {
      ghost var keys := Keys(servers);
      starts := [];
      var j := 0;
      while j < |enabledConfigs|
        invariant 0 <= j <= |enabledConfigs|
        invariant starts == Starts(enabledConfigs[..j], keys)
      {
        var enabledConfig := enabledConfigs[j];
        assert enabledConfigs[..j] + [enabledConfig] == enabledConfigs[..j + 1];
        StartsStep(enabledConfigs[..j], enabledConfig, keys);
        var runningExtensions := CollectRunningExtensions(enabledConfig);
        var newStarts := StartsForManifest(enabledConfig, runningExtensions);
        starts := starts + newStarts;
        j := j + 1;
      }
      assert enabledConfigs[..j] == enabledConfigs;
    }

    /** The inner start loop for one enabled manifest: each allowed extension not yet served. */
    method StartsForManifest(enabledConfig: ConfigFiles.NativeConfigFile, runningExtensions: seq<string>) returns (newStarts: seq<ServerKey>)
      ensures newStarts == StartsFor(enabledConfig, enabledConfig.content.allowedExtensions, runningExtensions)
    {
      var extensions := enabledConfig.content.allowedExtensions;
      newStarts := [];
      var k := 0;
      while k < |extensions|
        invariant 0 <= k <= |extensions|
        invariant newStarts == StartsFor(enabledConfig, extensions[..k], runningExtensions)
      {
        assert extensions[..k + 1] == extensions[..k] + [extensions[k]];
        StartsForAppend(enabledConfig, extensions[..k], [extensions[k]], runningExtensions);
        StartsForOne(enabledConfig, extensions[k], runningExtensions);
        if extensions[k] !in runningExtensions {
          newStarts := newStarts + [ServerKey(enabledConfig, extensions[k])];
        }
        k := k + 1;
      }
      assert extensions[..k] == extensions;
    }

    /**
     * `RunEnabledServersBackground` up to its change loop: `allServersExited`
     * (unless nil) is subscribed to the exit signal, and `changes` to the
     * settings store.
     */
    method RunEnabledServersBackground(store: Settings.SettingsStore, allServersExited: Option<Settings.Channel>, changes: Settings.Channel)
      modifies exitSignal, store
      ensures allServersExited.Some? ==> exitSignal.receivers == old(exitSignal.receivers) + [allServersExited.value]
      ensures allServersExited.None? ==> exitSignal.receivers == old(exitSignal.receivers)
      ensures exitSignal.sent == old(exitSignal.sent)
      ensures store.subscribers == old(store.subscribers) + [changes]
      ensures store.lists == old(store.lists) && store.writes == old(store.writes)
    {
      if allServersExited.Some? {
        exitSignal.Subscribe(allServersExited.value);
      }
      store.SubscribeToChanges(Some(changes));
    }

    /**
     * One turn of the change loop: a refresh, followed by `StopServers` when
     * it fails (the loop's own call) or finds nothing enabled (the refresh's
     * call); otherwise the stop and start requests it made.
     */
    method OnSettingsChange(browser: Browsers.Browser, disk: ConfigFiles.Disk, lists: map<Browsers.Browser, seq<string>>, allExited: Settings.Channel)
      returns (err: Option<RefreshError>, stops: seq<Servers.Server>, starts: seq<ServerKey>)
      modifies exitSignal, set s | s in servers
      ensures var c := ConfigFiles.CollectSpec(browser, disk);
        var stopped := c.err.Some? || ConfigFiles.EnabledOnly(c.files, lists) == [];
        (err.Some? <==> c.err.Some?) &&
        (stopped ==>
           stops == [] && starts == [] &&
           (forall s | s in servers :: s.running == old(s.running) && (old(s.running) ==> s.stopPending)) &&
           (servers != [] ==>
              exitSignal.receivers == old(exitSignal.receivers) + [allExited] && exitSignal.sent == old(exitSignal.sent)) &&
           (servers == [] ==>
              exitSignal.sent == old(exitSignal.sent) + old(exitSignal.receivers) + [allExited] && exitSignal.receivers == [])) &&
        (!stopped ==>
           stops == Disabled(servers, lists) && starts == Starts(ConfigFiles.EnabledOnly(c.files, lists), Keys(servers)) &&
           exitSignal.receivers == old(exitSignal.receivers) && exitSignal.sent == old(exitSignal.sent))
    {
      var stopAll;
      err, stopAll, stops, starts := RefreshEnabledServers(browser, disk, lists);
      if err.Some? || stopAll {
        StopServers(allExited);
      }
    }

    /** The loop of `refreshEnabledServers` that lists the extensions served for manifests matching `config`. */
    method CollectRunningExtensions(config: ConfigFiles.NativeConfigFile) returns (runningExtensions: seq<string>)
      ensures runningExtensions == RunningExtensions(config, Keys(servers))
    {
      var keys := Keys(servers);
      runningExtensions := [];
      var i := 0;
      while i < |servers|
        invariant 0 <= i <= |servers|
        invariant runningExtensions == RunningExtensions(config, keys[..i])
      {
        assert keys[..i + 1][..i] == keys[..i];
        if config.Matches(servers[i].configFile) {
          runningExtensions := runningExtensions + [servers[i].extensionName];
        }
        i := i + 1;
      }
      assert keys[..i] == keys;
    }
  }
}

=== FILE: paths.dfy ===
/**
 * A '/'-separated model of the parts of Go's `path/filepath` that the bridge
 * uses: `Join` (of two elements), `Dir`, `Base`, `Ext` and `IsAbs`.
 * `Clean` is modelled only as far as `Join` drops a leading "." and
 * avoids a doubled separator.
 */
module FilePaths {
  import opened Prelude

  /** The index of the last '/' in `p`, if there is one. */
  function LastSlash(p: string): (r: Option<nat>)
    ensures r.Some? ==> r.value < |p| && p[r.value] == '/' && '/' !in p[r.value + 1..]
    ensures r.None? ==> '/' !in p
  {
    if p == [] then None
    else if p[|p| - 1] == '/' then Some(|p| - 1)
    else
      var r := LastSlash(p[..|p| - 1]);
      assert p == p[..|p| - 1] + [p[|p| - 1]];
      r
  }

  predicate IsAbs(p: string)
  {
    HasPrefix(p, "/")
  }

  /** `filepath.Join(a, b)`. */
  function Join(a: string, b: string): string
  {
    if b == "" then a
    else if a == "" || a == "." then b
    else if a[|a| - 1] == '/' then a + b
    else a + "/" + b
  }

  /**
   * `filepath.Join` of several elements: joined two at a time from the left,
   * empty elements skipped.
   */
  function JoinAll(parts: seq<string>): string
  {
    if parts == [] then "" else Join(JoinAll(parts[..|parts| - 1]), parts[|parts| - 1])
  }

  /** `p` without its trailing separators. */
  function TrimTrailingSlashes(p: string): (r: string)
    ensures r == "" || r[|r| - 1] != '/'
    ensures |r| <= |p| && r == p[..|r|]
  {
    if p != "" && p[|p| - 1] == '/' then TrimTrailingSlashes(p[..|p| - 1]) else p
  }

  /**
   * `filepath.Base`: the last element of `p`, after trailing separators are
   * removed; "." for the empty path and "/" for a path of separators only.
   */
  function Base(p: string): (r: string)
    ensures r != "" && (r == "/" || '/' !in r)
  {
    if p == "" then "."
    else
      var q := TrimTrailingSlashes(p);
      if q == "" then "/"
      else match LastSlash(q)
        case None => q
        case Some(i) => q[i + 1..]
  }

  /** `filepath.Dir`: everything before the last element. */
  function Dir(p: string): string
  {
    match LastSlash(p)
    case None => "."
    case Some(i) => if i == 0 then "/" else p[..i]
  }

  /** `filepath.Ext`: the suffix of the last element that starts at its last '.', or "". */
  function Ext(p: string): (r: string)
    ensures r == "" || (r[0] == '.' && HasSuffix(p, r) && '/' !in r)
  {
    if p == "" || p[|p| - 1] == '/' then ""
    else if p[|p| - 1] == '.' then "."
    else
      var e := Ext(p[..|p| - 1]);
      if e == "" then "" else e + [p[|p| - 1]]
  }

  /** After a '/' that ends `pre`, a '/'-free `name` leaves that '/' the last one. */
  lemma {:induction false} LastSlashAppend(pre: string, name: string)
    requires pre != [] && pre[|pre| - 1] == '/' && '/' !in name
    ensures LastSlash(pre + name) == Some(|pre| - 1)
    decreases |name|
  {
    if name == [] {
      assert pre + name == pre;
    } else {
      var p := pre + name;
      assert p[|p| - 1] == name[|name| - 1];
      assert p[..|p| - 1] == pre + name[..|name| - 1];
      LastSlashAppend(pre, name[..|name| - 1]);
    }
  }

  /** The name Join gives a file `name` placed in `folder`, read back by Base. */
  lemma BaseOfJoin(folder: string, name: string)
    requires name != "" && '/' !in name
    ensures Base(Join(folder, name)) == name
  {
    if folder != "" && folder != "." {
      var pre := if folder[|folder| - 1] == '/' then folder else folder + "/";
      assert Join(folder, name) == pre + name;
      LastSlashAppend(pre, name);
      assert (pre + name)[|pre|..] == name;
    }
  }

  /** The same for a path of several elements that ends in a file name. */
  lemma BaseOfJoinAll(parts: seq<string>)
    requires parts != [] && parts[|parts| - 1] != "" && '/' !in parts[|parts| - 1]
    ensures Base(JoinAll(parts)) == parts[|parts| - 1]
  {
    BaseOfJoin(JoinAll(parts[..|parts| - 1]), parts[|parts| - 1]);
  }

  /** Ext of a file placed in a folder is the Ext of its name. */
  lemma ExtOfJoin(folder: string, name: string)
    requires name != "" && '/' !in name
    ensures Ext(Join(folder, name)) == Ext(name)
  {
    if folder != "" && folder != "." {
      var pre := if folder[|folder| - 1] == '/' then folder else folder + "/";
      assert Join(folder, name) == pre + name;
      ExtAppend(pre, name);
    }
  }

  /** Ext only looks at what follows the last '/'. */
  lemma {:induction false} ExtAppend(pre: string, name: string)
    requires '/' !in name
    requires pre != [] && pre[|pre| - 1] == '/'
    ensures Ext(pre + name) == Ext(name)
    decreases |name|
  {
    if name == [] {
      assert pre + name == pre;
    } else {
      var p := pre + name;
      assert p[|p| - 1] == name[|name| - 1];
      assert p[..|p| - 1] == pre + name[..|name| - 1];
      ExtAppend(pre, name[..|name| - 1]);
    }
  }

  /**
   * The path `Join(Dir(p), Base(p) + ".new")` that a write-then-rename uses
   * names the file `Base(p) + ".new"`, so it is never the target `p` itself.
   */
  lemma TempPathIsSibling(p: string)
    requires Base(p) != "/"
    ensures Base(Join(Dir(p), Base(p) + ".new")) == Base(p) + ".new"
    ensures Join(Dir(p), Base(p) + ".new") != p
  {
    BaseOfJoin(Dir(p), Base(p) + ".new");
    assert |Base(p) + ".new"| != |Base(p)|;
  }
}

=== FILE: permissions.dfy ===
/**
 * The flatpak permission check and fix of lib/flatpak/permissions.go. The
 * `flatpak` command is an input: its output lines, or `None` when it fails.
 * `path` is the home-relative client folder, the result of
 * `MakePathHomeRelative(GetClientExecutableDir())`.
 */
module Permissions {
  import opened Prelude
  import Browsers

  /** The key of the override line that lists the folders a sandbox may see. */
  const FilesystemsKey: string := "filesystems="

  /** The command that shows a browser's user overrides. */
  function ShowOverridesArgv(id: string): seq<string>
  {
    ["flatpak", "--user", "override", "--show", id]
  }

  /** The command that grants a browser access to `path`. */
  function GrantArgv(path: string, id: string): seq<string>
  {
    ["flatpak", "--user", "override", "--filesystem", path, id]
  }

  /** An override line that counts as granting `path`: the filesystems line, with `path` anywhere in it. */
  predicate Grants(line: string, path: string)
  {
    HasPrefix(line, FilesystemsKey) && Contains(line, path)
  }

  datatype PermissionError = OverrideShowFailed(id: string) | OverrideSetFailed(id: string)

  /**
   * `CheckBrowserPermissions`: true at the first line that grants `path`,
   * false when no line does. `scanned` is the number of lines read. A
   * failing command is an error, and nothing is scanned.
   */
  method CheckBrowserPermissions(browser: Browsers.Browser, path: string, output: Option<seq<string>>)
    returns (hasPermissions: bool, err: Option<PermissionError>, argv: seq<string>, scanned: nat)
    requires Browsers.IsKnown(browser)
    ensures argv == ShowOverridesArgv(Browsers.GetFlatpakId(browser).value)
    ensures output.None? ==> !hasPermissions && err == Some(OverrideShowFailed(Browsers.GetFlatpakId(browser).value)) && scanned == 0
    ensures output.Some? ==> err.None? && scanned <= |output.value|
    ensures output.Some? ==> (hasPermissions <==> exists i | 0 <= i < |output.value| :: Grants(output.value[i], path))
    ensures output.Some? && hasPermissions ==>
      scanned > 0 && Grants(output.value[scanned - 1], path) &&
      forall j | 0 <= j < scanned - 1 :: !Grants(output.value[j], path)
    ensures output.Some? && !hasPermissions ==> scanned == |output.value|
  {
    var browserId := Browsers.GetFlatpakId(browser).value;
    argv := ShowOverridesArgv(browserId);
    scanned := 0;
    if output.None? {
      return false, Some(OverrideShowFailed(browserId)), argv, scanned;
    }
    var lines := output.value;
    while scanned < |lines|
      invariant scanned <= |lines|
      invariant forall j | 0 <= j < scanned :: !Grants(lines[j], path)
    {
      var line := lines[scanned];
      scanned := scanned + 1;
      if !HasPrefix(line, FilesystemsKey) {
        continue;
      }
      if Contains(line, path) {
        return true, None, argv, scanned;
      }
    }
    return false, None, argv, scanned;
  }

  /** `FixBrowserPermissions`: runs the grant command; an error exactly when it fails. */
  method FixBrowserPermissions(browser: Browsers.Browser, path: string, commandOk: bool)
    returns (err: Option<PermissionError>, argv: seq<string>)
    requires Browsers.IsKnown(browser)
    ensures argv == GrantArgv(path, Browsers.GetFlatpakId(browser).value)
    ensures err.None? <==> commandOk
    ensures err.Some? ==> err.value == OverrideSetFailed(Browsers.GetFlatpakId(browser).value)
  {
    var browserId := Browsers.GetFlatpakId(browser).value;
    argv := GrantArgv(path, browserId);
    if !commandOk {
      return Some(OverrideSetFailed(browserId)), argv;
    }
    return None, argv;
  }

  /** A line counts only with the key at its very start, whatever else it contains. */
  lemma OtherKeysIgnored(line: string, path: string)
    requires !HasPrefix(line, FilesystemsKey)
    ensures !Grants(line, path)
  {
  }

  /**
   * The match is by substring: a filesystems line that grants a longer
   * folder, of which `path` is only a prefix, also counts.
   */
  lemma SubstringMatchAcceptsLongerPath(path: string, suffix: string)
    ensures Grants(FilesystemsKey + path + suffix, path)
  {
    var line := FilesystemsKey + path + suffix;
    assert line[|FilesystemsKey|..|FilesystemsKey| + |path|] == path;
    assert OccursAt(line, path, |FilesystemsKey|);
  }

  /** The grant command's path makes the check succeed on a line listing exactly that path. */
  lemma GrantedPathIsFound(path: string)
    ensures Grants(FilesystemsKey + path, path)
  {
    SubstringMatchAcceptsLongerPath(path, "");
    assert FilesystemsKey + path + "" == FilesystemsKey + path;
  }
}

=== FILE: prelude.dfy ===
/**
 * Small value types and sequence helpers shared by the model: the Go idioms
 * `(value, error)` and "maybe nil", and the `strings`/`slices` operations the
 * bridge uses (`HasPrefix`, `TrimPrefix`, `Contains`, `slices.DeleteFunc`).
 */
module Prelude {

  datatype Option<+T> = None | Some(value: T)

  datatype Result<+T, +E> = Ok(value: T) | Err(error: E)

  /** A byte, as in Go's `[]byte` (an integer in 0..255). */
  type Byte = b: int | 0 <= b < 256

  /** `strings.HasPrefix` / `bytes.HasPrefix`. */
  predicate HasPrefix<T(==)>(s: seq<T>, prefix: seq<T>)
  {
    |prefix| <= |s| && s[..|prefix|] == prefix
  }

  predicate HasSuffix<T(==)>(s: seq<T>, suffix: seq<T>)
  {
    |suffix| <= |s| && s[|s| - |suffix|..] == suffix
  }

  /** `strings.TrimPrefix`: removes one leading occurrence of `prefix`, if any. */
  function TrimPrefix<T(==)>(s: seq<T>, prefix: seq<T>): (r: seq<T>)
    ensures HasPrefix(s, prefix) ==> s == prefix + r
    ensures !HasPrefix(s, prefix) ==> r == s
  {
    if HasPrefix(s, prefix) then
      assert s == s[..|prefix|] + s[|prefix|..];
      s[|prefix|..]
    else s
  }

  /** `sub` occurs in `s` starting at index `i`. */
  predicate OccursAt<T(==)>(s: seq<T>, sub: seq<T>, i: int)
  {
    0 <= i && i + |sub| <= |s| && s[i..i + |sub|] == sub
  }

  /** `strings.Contains`. */
  predicate Contains<T(==)>(s: seq<T>, sub: seq<T>)
  {
    exists i | 0 <= i <= |s| - |sub| :: OccursAt(s, sub, i)
  }

  /** `slices.DeleteFunc(s, func(e) bool { return e == x })`: every `x` removed, order kept. */
  function RemoveAll<T(==)>(s: seq<T>, x: T): (r: seq<T>)
    ensures x !in r
    ensures forall i | 0 <= i < |s| && s[i] != x :: s[i] in r
    ensures forall i | 0 <= i < |r| :: r[i] in s
    ensures |r| <= |s|
  {
    if s == [] then []
    else if s[0] == x then RemoveAll(s[1..], x)
    else [s[0]] + RemoveAll(s[1..], x)
  }

  /** The number of occurrences of `x` in `s`. */
  function Count<T(==)>(s: seq<T>, x: T): nat
  {
    if s == [] then 0 else (if s[0] == x then 1 else 0) + Count(s[1..], x)
  }

  lemma {:induction false} RemoveAllLength<T>(s: seq<T>, x: T)
    ensures |RemoveAll(s, x)| == |s| - Count(s, x)
  {
    if s != [] {
      RemoveAllLength(s[1..], x);
    }
  }

  lemma {:induction false} RemoveAllAbsent<T>(s: seq<T>, x: T)
    requires x !in s
    ensures RemoveAll(s, x) == s
  {
    if s != [] {
      RemoveAllAbsent(s[1..], x);
      assert s == [s[0]] + s[1..];
    }
  }

  /** Removing from a concatenation removes from each part. */
  lemma {:induction false} RemoveAllAppend<T>(s: seq<T>, t: seq<T>, x: T)
    ensures RemoveAll(s + t, x) == RemoveAll(s, x) + RemoveAll(t, x)
  {
    if s == [] {
      assert s + t == t;
    } else {
      assert (s + t)[0] == s[0] && (s + t)[1..] == s[1..] + t;
      RemoveAllAppend(s[1..], t, x);
    }
  }

  predicate NoDuplicates<T(==)>(s: seq<T>)
  {
    forall i, j :: 0 <= i < j < |s| ==> s[i] != s[j]
  }
}

=== FILE: server.dfy ===
/**
 * One socket server, lib/server/server.go:46-143, and the permission routine
 * of lib/server/server.go:275-294. A `Server` serves one extension of one
 * manifest. Its `running` flag is set by the first `Run` and never reset;
 * `stopPending` is the token in its capacity-1 stop channel. The listener,
 * the accept goroutine and the stop channel's receive become a sequence of
 * `AcceptEvent`s, the result of `net.Listen` an input.
 */
module Servers {
  import opened Prelude
  import Browsers
  import ConfigFiles
  import Permissions

  /** The number of consecutive accept errors that are retried. */
  const MaxRetries: nat := 5

  /** What the accept loop's `select` receives next. */
  datatype AcceptEvent = Accepted | AcceptFailed | StopRequested

  /** How the accept loop ends, or that it has not ended when the events run out. */
  datatype Ending = StillServing | AcceptGaveUp | Stopped

  datatype LoopResult = LoopResult(ending: Ending, dispatched: nat)

  /**
   * The accept loop from a retry count: an accepted connection is dispatched
   * and resets the count, an error is retried while the count is below
   * `MaxRetries` and ends the loop otherwise, a stop ends it.
   */
  function AcceptLoop(events: seq<AcceptEvent>, retries: nat): (r: LoopResult)
    requires retries <= MaxRetries
    ensures r.dispatched <= |events|
    ensures r.ending == StillServing ==> StopRequested !in events
  {
    if events == [] then LoopResult(StillServing, 0)
    else match events[0]
      case Accepted =>
        var r := AcceptLoop(events[1..], 0);
        LoopResult(r.ending, r.dispatched + 1)
      case AcceptFailed =>
        if retries < MaxRetries then AcceptLoop(events[1..], retries + 1) else LoopResult(AcceptGaveUp, 0)
      case StopRequested => LoopResult(Stopped, 0)
  }

  datatype RunError = AlreadyRunning | ListenFailed | AcceptGivenUp

  /** How `run` ends: it returns, or it is still in its accept loop when the events run out. */
  datatype RunOutcome = Returned(err: Option<RunError>) | Serving

  function OutcomeOf(ending: Ending): RunOutcome
  {
    match ending
    case StillServing => Serving
    case AcceptGaveUp => Returned(Some(AcceptGivenUp))
    case Stopped => Returned(None)
  }

  class Server {
    const configFile: ConfigFiles.NativeConfigFile
    const extensionName: string
    const listenIn: bool
    var running: bool
    var stopPending: bool

    /** `Server{ConfigFile: …, ExtensionName: …, ListenIn: …}`. */
    constructor (configFile: ConfigFiles.NativeConfigFile, extensionName: string, listenIn: bool)
      ensures this.configFile == configFile && this.extensionName == extensionName && this.listenIn == listenIn
      ensures !running && !stopPending
    {
      this.configFile := configFile;
      this.extensionName := extensionName;
      this.listenIn := listenIn;
      running := false;
      stopPending := false;
    }

    /**
     * `end`: nothing when the server is not running; otherwise one stop
     * token. A token already waiting means the send blocks (`blocked`), and
     * nothing changes.
     */
    method End() returns (blocked: bool)
      modifies this
      ensures running == old(running)
      ensures !old(running) ==> !blocked && stopPending == old(stopPending)
      ensures old(running) ==> stopPending && (blocked <==> old(stopPending))
    {
      if !running {
        return false;
      }
      blocked := stopPending;
      stopPending := true;
    }

    /**
     * `run`: refuses a server that already ran. Otherwise it marks the
     * server running, makes an empty stop channel, asks for the browser's
     * permissions to be checked (`permissionRequest`), listens, and runs the
     * accept loop over `events`. On a stop it offers the drain signal to the
     * `readyConnections` connections waiting for it and returns nil.
     */
    method Run(listenOk: bool, events: seq<AcceptEvent>, readyConnections: nat)
      returns (outcome: RunOutcome, dispatched: nat, drained: nat, permissionRequest: Option<Browsers.Browser>)
      modifies this
      ensures running
      ensures old(running) ==>
        outcome == Returned(Some(AlreadyRunning)) && dispatched == 0 && drained == 0 &&
        permissionRequest == None && stopPending == old(stopPending)
      ensures !old(running) ==> permissionRequest == Some(configFile.browser) && !stopPending
      ensures !old(running) && !listenOk ==> outcome == Returned(Some(ListenFailed)) && dispatched == 0 && drained == 0
      ensures !old(running) && listenOk ==>
        var loop := AcceptLoop(events, 0);
        outcome == OutcomeOf(loop.ending) && dispatched == loop.dispatched &&
        drained == (if loop.ending == Stopped then readyConnections else 0)
    {
      dispatched, drained := 0, 0;
      if running {
        return Returned(Some(AlreadyRunning)), dispatched, drained, None;
      }
      running := true;
      stopPending := false;
      permissionRequest := Some(configFile.browser);
      if !listenOk {
        return Returned(Some(ListenFailed)), dispatched, drained, permissionRequest;
      }

      var retries: nat := 0;
      var i := 0;
      while i < |events|
        invariant 0 <= i <= |events| && retries <= MaxRetries
        invariant AcceptLoop(events[i..], retries).ending == AcceptLoop(events, 0).ending
        invariant dispatched + AcceptLoop(events[i..], retries).dispatched == AcceptLoop(events, 0).dispatched
      {
        assert events[i..][1..] == events[i + 1..];
        match events[i] {
          case Accepted =>
            retries := 0;
            dispatched := dispatched + 1;
          case AcceptFailed =>
            if retries < MaxRetries {
              retries := retries + 1;
            } else {
              return Returned(Some(AcceptGivenUp)), dispatched, drained, permissionRequest;
            }
          case StopRequested =>
            // Offer the drain signal while a connection takes it: each of the
            // `readyConnections` handlers blocked in its `select` takes one
            // token and ends as `Connections.StopSignal` describes; the first
            // offer nobody takes ends the loop, and the handlers are waited for.
            var ready := readyConnections;
            while ready > 0
              invariant drained + ready == readyConnections
            {
              drained := drained + 1;
              ready := ready - 1;
            }
            return Returned(None), dispatched, drained, permissionRequest;
        }
        i := i + 1;
      }
      return Serving, dispatched, drained, permissionRequest;
    }
  }

  /** `k` accept errors in a row. */
  function Failures(k: nat): (r: seq<AcceptEvent>)
    ensures |r| == k && forall i | 0 <= i < k :: r[i] == AcceptFailed
  {
    seq(k, _ => AcceptFailed)
  }

  /** Accept errors that keep the count within `MaxRetries` are absorbed; the count they leave is the old one plus their number. */
  lemma {:induction false} FailuresAbsorbed(k: nat, retries: nat, rest: seq<AcceptEvent>)
    requires retries + k <= MaxRetries
    ensures AcceptLoop(Failures(k) + rest, retries) == AcceptLoop(rest, retries + k)
  {
    if k > 0 {
      assert (Failures(k) + rest)[0] == AcceptFailed;
      assert (Failures(k) + rest)[1..] == Failures(k - 1) + rest;
      FailuresAbsorbed(k - 1, retries + 1, rest);
    } else {
      assert Failures(k) + rest == rest;
    }
  }

  /** The sixth consecutive accept error ends the server with an error, whatever follows. */
  lemma SixthFailureIsFatal(retries: nat, rest: seq<AcceptEvent>)
    requires retries <= MaxRetries
    ensures AcceptLoop(Failures(MaxRetries - retries + 1) + rest, retries) == LoopResult(AcceptGaveUp, 0)
  {
    var k := MaxRetries - retries;
    assert Failures(k + 1) + rest == Failures(k) + ([AcceptFailed] + rest);
    FailuresAbsorbed(k, retries, [AcceptFailed] + rest);
  }

  /** A successful accept after up to five errors forgets them: the next errors are counted from zero. */
  lemma RetriesResetOnAccept(k: nat, rest: seq<AcceptEvent>)
    requires k <= MaxRetries
    ensures var r := AcceptLoop(rest, 0);
      AcceptLoop(Failures(k) + [Accepted] + rest, 0) == LoopResult(r.ending, r.dispatched + 1)
  {
    assert Failures(k) + [Accepted] + rest == Failures(k) + ([Accepted] + rest);
    FailuresAbsorbed(k, 0, [Accepted] + rest);
    assert ([Accepted] + rest)[1..] == rest;
  }

  /** Nothing after a stop is looked at: no connection is dispatched once the stop is received. */
  lemma {:induction false} NothingAfterStop(before: seq<AcceptEvent>, after: seq<AcceptEvent>, retries: nat)
    requires retries <= MaxRetries
    ensures AcceptLoop(before + [StopRequested] + after, retries) == AcceptLoop(before + [StopRequested], retries)
  {
    if before == [] {
      assert (before + [StopRequested] + after)[0] == StopRequested;
    } else {
      assert (before + [StopRequested] + after)[1..] == before[1..] + [StopRequested] + after;
      assert (before + [StopRequested])[1..] == before[1..] + [StopRequested];
      NothingAfterStop(before[1..], after, 0);
      if retries < MaxRetries {
        NothingAfterStop(before[1..], after, retries + 1);
      }
    }
  }

  /** A server runs at most once: a second `Run` on the same server is refused and starts nothing. */
  method RunTwice(s: Server, listenOk: bool, events: seq<AcceptEvent>, readyConnections: nat)
    returns (first: RunOutcome, second: RunOutcome)
    modifies s
    ensures second == Returned(Some(AlreadyRunning))
  {
    var d, n, p;
    first, d, n, p := s.Run(listenOk, events, readyConnections);
    second, d, n, p := s.Run(listenOk, events, readyConnections);
  }

  /** What the permission routine did for one queued browser. */
  datatype PermissionStep = CheckFailed | AlreadyPermitted | Fixed | FixFailed

  /**
   * `permissionRoutine` over the browsers queued so far: each is checked
   * with the command output `outputs[i]`; the fix runs only when the check
   * succeeded and found no grant, with result `fixOks[i]`. Errors are logged
   * and the loop goes on.
   */
  method PermissionRoutine(queue: seq<Browsers.Browser>, path: string, outputs: seq<Option<seq<string>>>, fixOks: seq<bool>)
    returns (steps: seq<PermissionStep>, fixCommands: seq<seq<string>>)
    requires |outputs| == |queue| && |fixOks| == |queue|
    requires forall i | 0 <= i < |queue| :: Browsers.IsKnown(queue[i])
    ensures |steps| == |queue|
    ensures forall i | 0 <= i < |queue| :: steps[i] == PermissionStepFor(path, outputs[i], fixOks[i])
    ensures fixCommands == FixCommands(queue, path, outputs)
  {
    steps, fixCommands := [], [];
    var i := 0;
    while i < |queue|
      invariant 0 <= i <= |queue| && |steps| == i
      invariant forall j | 0 <= j < i :: steps[j] == PermissionStepFor(path, outputs[j], fixOks[j])
      invariant fixCommands == FixCommands(queue[..i], path, outputs[..i])
    {
      assert queue[..i + 1][..i] == queue[..i] && outputs[..i + 1][..i] == outputs[..i];
      var hasPermissions, err, argv, scanned := Permissions.CheckBrowserPermissions(queue[i], path, outputs[i]);
      var step;
      if err.Some? {
        step := CheckFailed;
      } else if hasPermissions {
        step := AlreadyPermitted;
      } else {
        var fixErr, fixArgv := Permissions.FixBrowserPermissions(queue[i], path, fixOks[i]);
        fixCommands := fixCommands + [fixArgv];
        step := if fixErr.Some? then FixFailed else Fixed;
      }
      steps := steps + [step];
      i := i + 1;
    }
    assert queue[..i] == queue && outputs[..i] == outputs;
  }

  /** Some line of the output grants `path`. */
  predicate AnyGrants(lines: seq<string>, path: string)
  {
    exists i | 0 <= i < |lines| :: Permissions.Grants(lines[i], path)
  }

  /** The routine's step for one browser. */
  function PermissionStepFor(path: string, output: Option<seq<string>>, fixOk: bool): PermissionStep
  {
    if output.None? then CheckFailed
    else if AnyGrants(output.value, path) then AlreadyPermitted
    else if fixOk then Fixed
    else FixFailed
  }

  /** The grant commands the routine runs: one per browser whose check succeeded without finding a grant, in queue order. */
  function FixCommands(queue: seq<Browsers.Browser>, path: string, outputs: seq<Option<seq<string>>>): (r: seq<seq<string>>)
    requires |outputs| == |queue|
    requires forall i | 0 <= i < |queue| :: Browsers.IsKnown(queue[i])
    ensures |r| <= |queue|
    ensures forall c | c in r :: exists i | 0 <= i < |queue| :: c == Permissions.GrantArgv(path, Browsers.GetFlatpakId(queue[i]).value)
  {
    if queue == [] then []
    else
      var n := |queue| - 1;
      var init := FixCommands(queue[..n], path, outputs[..n]);
      if outputs[n].Some? && !AnyGrants(outputs[n].value, path) then
        init + [Permissions.GrantArgv(path, Browsers.GetFlatpakId(queue[n]).value)]
      else init
  }

  /** A browser whose check fails, or finds a grant, gets no grant command. */
  lemma {:induction false} NoFixWithoutNeed(queue: seq<Browsers.Browser>, path: string, outputs: seq<Option<seq<string>>>)
    requires |outputs| == |queue|
    requires forall i | 0 <= i < |queue| :: Browsers.IsKnown(queue[i])
    requires forall i | 0 <= i < |queue| :: outputs[i].None? || AnyGrants(outputs[i].value, path)
    ensures FixCommands(queue, path, outputs) == []
  {
    if queue != [] {
      var n := |queue| - 1;
      NoFixWithoutNeed(queue[..n], path, outputs[..n]);
    }
  }
}

=== FILE: settings.dfy ===
/**
 * The user's settings, lib/settings/settings.go: for each browser the list of
 * enabled manifest file names (the key `<browser>.enabledConfigs` of the
 * settings file), and the channels told about changes to the file. The
 * settings file itself is a map from browser to list, and `writes` counts the
 * times the file was written.
 */
module Settings {
  import opened Prelude
  import Browsers

  /** The enabled list stored for `browser`; a missing key reads as an empty list. */
  function EnabledIn(lists: map<Browsers.Browser, seq<string>>, browser: Browsers.Browser): (r: seq<string>)
    ensures browser in lists ==> r == lists[browser]
    ensures browser !in lists ==> r == []
  {
    if browser in lists then lists[browser] else []
  }

  /**
   * The list after asking for `name` to be enabled or disabled: unchanged
   * when its membership already matches, the name appended when enabling,
   * every occurrence removed when disabling.
   */
  function UpdatedList(current: seq<string>, name: string, enable: bool): (r: seq<string>)
    ensures name in r <==> enable
    ensures forall x | x != name :: x in r <==> x in current
    ensures (name in current) == enable ==> r == current
    ensures enable && name !in current ==> r == current + [name]
  {
    if (name in current) == enable then current
    else if enable then current + [name]
    else RemoveAll(current, name)
  }

  /** Asking twice is asking once. */
  lemma UpdateIdempotent(current: seq<string>, name: string, enable: bool)
    ensures UpdatedList(UpdatedList(current, name, enable), name, enable) == UpdatedList(current, name, enable)
  {
  }

  /** Disabling deletes exactly the occurrences of the name. */
  lemma {:induction false} DisableRemovesEveryOccurrence(current: seq<string>, name: string)
    requires name in current
    ensures |UpdatedList(current, name, false)| == |current| - Count(current, name)
  {
    RemoveAllLength(current, name);
  }

  /** A channel, by identity. */
  type Channel = nat

  class SettingsStore {
    var lists: map<Browsers.Browser, seq<string>>
    var writes: nat
    var subscribers: seq<Channel>

    constructor (lists: map<Browsers.Browser, seq<string>>)
      ensures this.lists == lists && writes == 0 && subscribers == []
    {
      this.lists := lists;
      writes := 0;
      subscribers := [];
    }

    /** `EnabledNativeConfigFiles`. */
    function EnabledNativeConfigFiles(browser: Browsers.Browser): (r: seq<string>)
      reads this
      ensures browser in lists ==> r == lists[browser]
      ensures browser !in lists ==> r == []
    {
      EnabledIn(lists, browser)
    }

    /**
     * `SetNativeConfigFileEnabled`: updates the browser's list and writes the
     * settings file, or does nothing when the name's membership already
     * matches. The new list is kept even when the write fails.
     */
    method SetNativeConfigFileEnabled(browser: Browsers.Browser, name: string, enable: bool, writeOk: bool)
      returns (err: Option<string>)
      modifies this
      ensures subscribers == old(subscribers)
      ensures (name in old(EnabledIn(lists, browser))) == enable ==>
        err == None && lists == old(lists) && writes == old(writes)
      ensures (name in old(EnabledIn(lists, browser))) != enable ==>
        lists == old(lists)[browser := UpdatedList(old(EnabledIn(lists, browser)), name, enable)] &&
        writes == old(writes) + 1 && (err == None <==> writeOk)
      ensures name in EnabledIn(lists, browser) <==> enable
      ensures forall b | b != browser :: EnabledIn(lists, b) == old(EnabledIn(lists, b))
    {
      var allEnabled := EnabledIn(lists, browser);
      var isCurrentlyEnabled := name in allEnabled;
      if isCurrentlyEnabled == enable {
        return None;
      }
      if enable {
        allEnabled := allEnabled + [name];
      } else {
        allEnabled := RemoveAll(allEnabled, name);
      }
      lists := lists[browser := allEnabled];
      writes := writes + 1;
      err := if writeOk then None else Some("could not write the settings file");
    }

    /** `SubscribeToChanges`: a nil channel is ignored, any other is appended. */
    method SubscribeToChanges(subscription: Option<Channel>)
      modifies this
      ensures lists == old(lists) && writes == old(writes)
      ensures subscription.None? ==> subscribers == old(subscribers)
      ensures subscription.Some? ==> subscribers == old(subscribers) + [subscription.value]
    {
      if subscription.Some? {
        subscribers := subscribers + [subscription.value];
      }
    }

    /**
     * `onSettingsFileChanged`: offers one token to each subscriber, in order,
     * without blocking; those not receiving (`ready` is the set of channels
     * with a receiver waiting) are skipped.
     */
    method OnSettingsFileChanged(ready: set<Channel>) returns (notified: seq<Channel>)
      ensures notified == ReadySubscribers(subscribers, ready)
    {
      notified := [];
      var i := 0;
      while i < |subscribers|
        invariant 0 <= i <= |subscribers|
        invariant notified == ReadySubscribers(subscribers[..i], ready)
      {
        assert subscribers[..i + 1][..i] == subscribers[..i];
        if subscribers[i] in ready {
          notified := notified + [subscribers[i]];
        }
        i := i + 1;
      }
      assert subscribers[..i] == subscribers;
    }
  }

  /** The subscribers, in order, whose channel takes a token. */
  function ReadySubscribers(subscribers: seq<Channel>, ready: set<Channel>): (r: seq<Channel>)
    ensures |r| <= |subscribers|
    ensures forall i | 0 <= i < |r| :: r[i] in ready && r[i] in subscribers
    ensures forall c | c in subscribers && c in ready :: c in r
  {
    if subscribers == [] then []
    else
      var init := ReadySubscribers(subscribers[..|subscribers| - 1], ready);
      var last := subscribers[|subscribers| - 1];
      assert subscribers == subscribers[..|subscribers| - 1] + [last];
      if last in ready then init + [last] else init
  }

  /** A single subscriber is told exactly when it is ready. */
  lemma ReadySubscribersOne(c: Channel, ready: set<Channel>)
    ensures ReadySubscribers([c], ready) == if c in ready then [c] else []
  {
    assert [c][..0] == [];
  }

  /**
   * `ReadySubscribers` keeps the subscription order and every repeat:
   * subscribers split in two give the two parts' ready channels in turn.
   */
  lemma {:induction false} ReadySubscribersAppend(s: seq<Channel>, t: seq<Channel>, ready: set<Channel>)
    ensures ReadySubscribers(s + t, ready) == ReadySubscribers(s, ready) + ReadySubscribers(t, ready)
    decreases |t|
  {
    if t == [] {
      assert s + t == s;
    } else {
      var init := t[..|t| - 1];
      assert (s + t)[..|s + t| - 1] == s + init;
      assert (s + t)[|s + t| - 1] == t[|t| - 1];
      ReadySubscribersAppend(s, init, ready);
    }
  }
}

=== FILE: socket_name.dfy ===
/**
 * The socket file name of lib/util/filesystem.go: an extension identifier with
 * one leading "chrome-extension://" removed, encoded with base64 (RFC 4648,
 * section 4, with '=' padding) over a custom alphabet whose last two symbols
 * are '+' and '-', and cut to at most 50 characters. A Go string is a byte
 * sequence, so names are `seq<Byte>` here; the result is an ASCII string.
 */
module SocketNames {
  import opened Prelude

  const Upper: string := "ABCDEFGHIJKLMNOPQRSTUVWXYZ"
  const Lower: string := "abcdefghijklmnopqrstuvwxyz"
  const Digits: string := "0123456789"

  /** The alphabet of `socketEncoding`: symbol 62 is '+', symbol 63 is '-'. */
  const Alphabet: string := Upper + Lower + Digits + "+-"

  const Padding: char := '='

  /** The longest socket file name. */
  const MaxSocketNameLength: nat := 50

  /** The scheme prefix that Chromium-family browsers put before an extension id. */
  const ChromeExtensionScheme: seq<Byte> := AsciiBytes("chrome-extension://")

  /** The bytes of an ASCII string (its UTF-8 encoding). */
  function AsciiBytes(s: string): (r: seq<Byte>)
    requires forall i | 0 <= i < |s| :: s[i] as int < 128
    ensures |r| == |s| && forall i | 0 <= i < |s| :: r[i] == s[i] as int
  {
    seq(|s|, i requires 0 <= i < |s| => s[i] as int)
  }

  /** The character that encodes the 6-bit value `k`: symbol `k` of `Alphabet` (see `SymbolsSpellAlphabet`). */
  function Symbol(k: int): (c: char)
    requires 0 <= k < 64
    ensures c != Padding && c != '/'
  {
    if k < 26 then ('A' as int + k) as char
    else if k < 52 then ('a' as int + k - 26) as char
    else if k < 62 then ('0' as int + k - 52) as char
    else if k == 62 then '+'
    else '-'
  }

  /** The 6-bit value a character of the alphabet encodes (0 for other characters). */
  function SymbolValue(c: char): (k: int)
    ensures 0 <= k < 64
  {
    if 'A' <= c <= 'Z' then c as int - 'A' as int
    else if 'a' <= c <= 'z' then c as int - 'a' as int + 26
    else if '0' <= c <= '9' then c as int - '0' as int + 52
    else if c == '+' then 62
    else if c == '-' then 63
    else 0
  }

  lemma UpperTable()
    ensures forall i | 0 <= i < 26 :: Upper[i] == ('A' as int + i) as char
  {
  }

  lemma LowerTable()
    ensures forall i | 0 <= i < 26 :: Lower[i] == ('a' as int + i) as char
  {
  }

  lemma DigitsTable()
    ensures forall i | 0 <= i < 10 :: Digits[i] == ('0' as int + i) as char
  {
  }

  /** `Symbol` spells out `Alphabet`, in order. */
  lemma SymbolsSpellAlphabet(k: int)
    requires 0 <= k < 64
    ensures |Alphabet| == 64 && Alphabet[k] == Symbol(k)
  {
    UpperTable();
    LowerTable();
    DigitsTable();
    if k < 26 {
      assert Alphabet[k] == Upper[k];
    } else if k < 52 {
      assert Alphabet[k] == Lower[k - 26];
    } else if k < 62 {
      assert Alphabet[k] == Digits[k - 52];
    } else {
      assert Alphabet[k] == "+-"[k - 62];
    }
  }

  /** Each symbol decodes back to its value. */
  lemma SymbolDecodes(k: int)
    requires 0 <= k < 64
    ensures SymbolValue(Symbol(k)) == k
  {
  }

  /** Four symbols for three bytes. */
  function EncodeGroup(b0: Byte, b1: Byte, b2: Byte): string
  {
    [Symbol(b0 / 4), Symbol((b0 % 4) * 16 + b1 / 16), Symbol((b1 % 16) * 4 + b2 / 64), Symbol(b2 % 64)]
  }

  /** `EncodeToString` of the padded encoding. */
  function Encode(data: seq<Byte>): (r: string)
    ensures |r| == 4 * ((|data| + 2) / 3)
    decreases |data|
  {
    if |data| == 0 then ""
    else if |data| == 1 then
      [Symbol(data[0] / 4), Symbol((data[0] % 4) * 16), Padding, Padding]
    else if |data| == 2 then
      [Symbol(data[0] / 4), Symbol((data[0] % 4) * 16 + data[1] / 16), Symbol((data[1] % 16) * 4), Padding]
    else
      EncodeGroup(data[0], data[1], data[2]) + Encode(data[3..])
  }

  /** The inverse of `Encode` on its results. */
  function Decode(s: string): seq<Byte>
    decreases |s|
  {
    if |s| < 4 then []
    else
      var k0, k1, k2, k3 := SymbolValue(s[0]), SymbolValue(s[1]), SymbolValue(s[2]), SymbolValue(s[3]);
      if s[2] == Padding then [k0 * 4 + k1 / 16]
      else if s[3] == Padding then [k0 * 4 + k1 / 16, (k1 % 16) * 16 + k2 / 4]
      else [k0 * 4 + k1 / 16, (k1 % 16) * 16 + k2 / 4, (k2 % 4) * 64 + k3] + Decode(s[4..])
  }

  /** The sextets of three bytes give the bytes back. */
  lemma SextetsRecombine(b0: Byte, b1: Byte, b2: Byte)
    ensures (b0 / 4) * 4 + ((b0 % 4) * 16 + b1 / 16) / 16 == b0
    ensures (((b0 % 4) * 16 + b1 / 16) % 16) * 16 + ((b1 % 16) * 4 + b2 / 64) / 4 == b1
    ensures (((b1 % 16) * 4 + b2 / 64) % 4) * 64 + b2 % 64 == b2
  {
  }

  /** One group of four symbols decodes to the three bytes it encodes. */
  lemma GroupDecodes(b0: Byte, b1: Byte, b2: Byte, rest: string)
    ensures var s := EncodeGroup(b0, b1, b2) + rest;
      |s| >= 4 && s[2] != Padding && s[3] != Padding &&
      Decode(s) == [b0, b1, b2] + Decode(rest)
  {
    var k0, k1, k2, k3 := b0 / 4, (b0 % 4) * 16 + b1 / 16, (b1 % 16) * 4 + b2 / 64, b2 % 64;
    SymbolDecodes(k0);
    SymbolDecodes(k1);
    SymbolDecodes(k2);
    SymbolDecodes(k3);
    SextetsRecombine(b0, b1, b2);
    var s := EncodeGroup(b0, b1, b2) + rest;
    assert s[0] == Symbol(k0) && s[1] == Symbol(k1) && s[2] == Symbol(k2) && s[3] == Symbol(k3);
    assert s[4..] == rest;
    assert Decode(s) == [k0 * 4 + k1 / 16, (k1 % 16) * 16 + k2 / 4, (k2 % 4) * 64 + k3] + Decode(rest);
  }

  /** A final group of one byte decodes to that byte. */
  lemma OneByteDecodes(b0: Byte)
    ensures Decode(Encode([b0])) == [b0]
  {
    var k0, k1 := b0 / 4, (b0 % 4) * 16;
    SymbolDecodes(k0);
    SymbolDecodes(k1);
    var s := Encode([b0]);
    assert s == [Symbol(k0), Symbol(k1), Padding, Padding];
  }

  /** A final group of two bytes decodes to those bytes. */
  lemma TwoBytesDecode(b0: Byte, b1: Byte)
    ensures Decode(Encode([b0, b1])) == [b0, b1]
  {
    var k0, k1, k2 := b0 / 4, (b0 % 4) * 16 + b1 / 16, (b1 % 16) * 4;
    SymbolDecodes(k0);
    SymbolDecodes(k1);
    SymbolDecodes(k2);
    SextetsRecombine(b0, b1, 0);
    var s := Encode([b0, b1]);
    assert s == [Symbol(k0), Symbol(k1), Symbol(k2), Padding];
  }

  /** Decoding an encoding gives back the bytes: the encoding loses nothing. */
  lemma {:induction false} DecodeEncode(data: seq<Byte>)
    ensures Decode(Encode(data)) == data
    decreases |data|
  {
    if |data| == 0 {
    } else if |data| == 1 {
      OneByteDecodes(data[0]);
      assert data == [data[0]];
    } else if |data| == 2 {
      TwoBytesDecode(data[0], data[1]);
      assert data == [data[0], data[1]];
    } else {
      var tail := data[3..];
      DecodeEncode(tail);
      DecodeEncodeStep(data[0], data[1], data[2], tail);
      assert Encode(data) == EncodeGroup(data[0], data[1], data[2]) + Encode(tail);
      assert data == [data[0], data[1], data[2]] + tail;
    }
  }

  /** A leading whole group decodes back, given that the rest does. */
  lemma DecodeEncodeStep(b0: Byte, b1: Byte, b2: Byte, tail: seq<Byte>)
    requires Decode(Encode(tail)) == tail
    ensures Decode(EncodeGroup(b0, b1, b2) + Encode(tail)) == [b0, b1, b2] + tail
  {
    GroupDecodes(b0, b1, b2, Encode(tail));
  }

  /** Different byte strings have different encodings. */
  lemma EncodeInjective(a: seq<Byte>, b: seq<Byte>)
    requires Encode(a) == Encode(b)
    ensures a == b
  {
    DecodeEncode(a);
    DecodeEncode(b);
  }

  /** Every character of an encoding is a symbol of `Alphabet` or the padding. */
  lemma {:induction false} EncodingUsesAlphabet(data: seq<Byte>)
    ensures forall j | 0 <= j < |Encode(data)| :: Encode(data)[j] in Alphabet || Encode(data)[j] == Padding
    ensures '/' !in Encode(data)
    decreases |data|
  {
    if |data| == 1 {
      SymbolsSpellAlphabet(data[0] / 4);
      SymbolsSpellAlphabet((data[0] % 4) * 16);
    } else if |data| == 2 {
      SymbolsSpellAlphabet(data[0] / 4);
      SymbolsSpellAlphabet((data[0] % 4) * 16 + data[1] / 16);
      SymbolsSpellAlphabet((data[1] % 16) * 4);
    } else if |data| >= 3 {
      var group := EncodeGroup(data[0], data[1], data[2]);
      var rest := Encode(data[3..]);
      EncodingUsesAlphabet(data[3..]);
      SymbolsSpellAlphabet(data[0] / 4);
      SymbolsSpellAlphabet((data[0] % 4) * 16 + data[1] / 16);
      SymbolsSpellAlphabet((data[1] % 16) * 4 + data[2] / 64);
      SymbolsSpellAlphabet(data[2] % 64);
      assert Encode(data) == group + rest;
      forall j | 0 <= j < |group + rest|
        ensures (group + rest)[j] in Alphabet || (group + rest)[j] == Padding
      {
        if j >= 4 {
          assert (group + rest)[j] == rest[j - 4];
        }
      }
    }
  }

  /** Whole groups encode separately: the encoding of a concatenation. */
  lemma {:induction false} EncodeAppend(x: seq<Byte>, y: seq<Byte>)
    requires |x| % 3 == 0
    ensures Encode(x + y) == Encode(x) + Encode(y)
    decreases |x|
  {
    if |x| > 0 {
      assert (x + y)[3..] == x[3..] + y;
      assert (x + y)[..3] == x[..3];
      EncodeAppend(x[3..], y);
    } else {
      assert x + y == y;
    }
  }

  /** The identifier with one leading scheme prefix removed. */
  function Stripped(extensionName: seq<Byte>): seq<Byte>
  {
    TrimPrefix(extensionName, ChromeExtensionScheme)
  }

  /** `GenerateSocketFileName`. */
  function GenerateSocketFileName(extensionName: seq<Byte>): (r: string)
    ensures |r| <= MaxSocketNameLength
    ensures HasPrefix(Encode(Stripped(extensionName)), r)
    ensures |Encode(Stripped(extensionName))| <= MaxSocketNameLength ==> r == Encode(Stripped(extensionName))
    ensures '/' !in r
  {
    var encoded := Encode(Stripped(extensionName));
    EncodingUsesAlphabet(Stripped(extensionName));
    if |encoded| >= MaxSocketNameLength then encoded[..MaxSocketNameLength] else encoded
  }

  /** Stripped names of at most 36 bytes are never cut. */
  lemma ShortNamesNotTruncated(extensionName: seq<Byte>)
    requires |Stripped(extensionName)| <= 36
    ensures GenerateSocketFileName(extensionName) == Encode(Stripped(extensionName))
  {
  }

  /** Stripped names of at most 36 bytes that differ get different socket files. */
  lemma ShortNamesDistinct(a: seq<Byte>, b: seq<Byte>)
    requires |Stripped(a)| <= 36 && |Stripped(b)| <= 36
    requires Stripped(a) != Stripped(b)
    ensures GenerateSocketFileName(a) != GenerateSocketFileName(b)
  {
    if GenerateSocketFileName(a) == GenerateSocketFileName(b) {
      EncodeInjective(Stripped(a), Stripped(b));
    }
  }

  /** Only one scheme prefix is removed; the rest of the name is encoded as it is. */
  lemma SchemeIsRemovedOnce(id: seq<Byte>)
    ensures Stripped(ChromeExtensionScheme + id) == id
  {
    assert (ChromeExtensionScheme + id)[..|ChromeExtensionScheme|] == ChromeExtensionScheme;
  }

  /**
   * The first 50 symbols of an encoding depend only on the first 38 bytes:
   * twelve whole groups give 48 symbols, and the next two symbols are fixed
   * by the 37th byte and the high half of the 38th.
   */
  lemma EncodingPrefix(x: seq<Byte>)
    requires |x| >= 38
    ensures |Encode(x)| >= 52
    ensures Encode(x)[..50] == Encode(x[..36]) + [Symbol(x[36] / 4), Symbol((x[36] % 4) * 16 + x[37] / 16)]
  {
    EncodingPrefixAt(x, 12);
  }

  /**
   * Past a whole number of groups, the next two symbols of an encoding
   * depend only on the next two bytes.
   */
  lemma EncodingPrefixAt(x: seq<Byte>, g: nat)
    requires |x| >= 3 * g + 2
    ensures |Encode(x)| >= 4 * g + 4
    ensures Encode(x)[..4 * g + 2] == Encode(x[..3 * g]) + [Symbol(x[3 * g] / 4), Symbol((x[3 * g] % 4) * 16 + x[3 * g + 1] / 16)]
  {
    var head, tail := x[..3 * g], x[3 * g..];
    assert x == head + tail;
    EncodeAppend(head, tail);
    EncodingStart(tail);
    var eh, et := Encode(head), Encode(tail);
    assert (3 * g + 2) / 3 == g;
    assert |eh| == 4 * g;
    assert (eh + et)[..4 * g + 2] == eh + [et[0], et[1]];
  }

  /** The first two symbols of an encoding of at least two bytes depend on those bytes alone. */
  lemma EncodingStart(t: seq<Byte>)
    requires |t| >= 2
    ensures |Encode(t)| >= 4
    ensures Encode(t)[0] == Symbol(t[0] / 4) && Encode(t)[1] == Symbol((t[0] % 4) * 16 + t[1] / 16)
  {
    if |t| > 2 {
      assert Encode(t) == EncodeGroup(t[0], t[1], t[2]) + Encode(t[3..]);
    }
  }

  /**
   * The cut makes long names collide: stripped names that agree on their
   * first 38 bytes get the same socket file, whatever follows.
   */
  lemma LongNamesCollide(a: seq<Byte>, b: seq<Byte>)
    requires |Stripped(a)| >= 38 && |Stripped(b)| >= 38
    requires Stripped(a)[..38] == Stripped(b)[..38]
    ensures GenerateSocketFileName(a) == GenerateSocketFileName(b)
  {
    var sa, sb := Stripped(a), Stripped(b);
    EncodingPrefix(sa);
    EncodingPrefix(sb);
    assert sa[..36] == sa[..38][..36] && sb[..36] == sb[..38][..36];
    assert sa[36] == sa[..38][36] && sb[36] == sb[..38][36];
    assert sa[37] == sa[..38][37] && sb[37] == sb[..38][37];
    assert Encode(sa)[..50] == Encode(sb)[..50];
  }
}
